=== FILE: README.md ===
# neko-actions bot, modelled in Dafny

The bot turns chat commands into GitHub Actions workflow dispatches, so
that a user can start a remote browser or desktop from Telegram and cancel
it again. It exists in two editions, and this project models the decision
logic of both:

- the Cloudflare Worker edition (`cloudflare-worker/cloudflare-edition.js`);
- the polling edition (`telegram-bot/telegram-manager.py`).

The Worker edition handles one webhook delivery per invocation. The
polling edition calls one handler per update.

Every handler is a pure function. It returns the ordered list of outbound
calls it makes (an `Effect`):

- `SendMessage`, `EditMessage` and `AnswerCallback` go to the chat provider;
- `TriggerWorkflow` and `CancelRun` go to the workflow provider.

Each effect carries its arguments. Everything the outside world decides
is a parameter:

- The workflow provider's answer is an `HttpOutcome`: a response with a
  status and body, or a network error. No flow calls the provider more
  than once, so one outcome suffices.
- Whether a chat-provider call throws is a `Fault`.
- The settings are an `Env` (Worker) or a `Config` (polling).

The modules:

- `Strings`: split, join, JavaScript trim, decimal rendering of integers, prefixes.
- `Effects`: JSON values, the effect type, call counting, and the execution of a planned call list under a fault.
- `Messaging`: the payloads of the three chat-provider calls, where optional keys appear only when truthy.
- `Workflow`: the dispatch body, and how each edition turns the provider's answer into a message.
- `Commands`: both command→image tables in declaration order, and the command lists rendered from them.
- `Auth`: both allow-list checks.
- `Worker`: the Worker's message, button and webhook flows.
- `Manager`: the polling edition's `start_browser`, `button_handler`/`stop_machine` and `actions_list` handlers.
- `Editions`: where the two editions agree and where they differ.

The Worker answers a delivery whose body is not a JSON update object with
500 "Error", and makes no call. A body that parses to `null` or another
non-object is in that class too, because the handler throws when it reads
a field of it. Every update object gets 200 "OK", unless a
chat-provider call throws. Such a throw is not caught: the remaining calls
are not made, and the delivery is answered with 500 "Error". The workflow
calls never throw; they turn every error into a result message
(`Effects.Run`, `Worker.HandleWebhook`, `Worker.BrowserFlowFaults`). In the
polling edition an exception ends the handler that raised it, and the bot
goes on with the next update (`Effects.Perform`, `Manager.Handle`).

## Model

| member | source | states |
|---|---|---|
| Strings.Split | cloudflare-worker/cloudflare-edition.js:160 | Splitting on a separator gives at least one piece, and no piece contains the separator. |
| Strings.JoinSplit | cloudflare-worker/cloudflare-edition.js:160 | Joining the pieces of a split with the separator gives back the original string. |
| Strings.SplitJoin | telegram-bot/telegram-manager.py:19 | Splitting a join of separator-free pieces gives back exactly those pieces. |
| Strings.Trim | cloudflare-worker/cloudflare-edition.js:160 | A trimmed token is a contiguous slice of the original. Everything cut away before and after it is JavaScript whitespace, and the slice neither starts nor ends with whitespace. |
| Strings.TrimKeepsUnpadded | cloudflare-worker/cloudflare-edition.js:160 | Trimming leaves a token without surrounding whitespace unchanged. |
| Strings.TrimChangesPadded | cloudflare-worker/cloudflare-edition.js:160 | Trimming changes a token that starts with whitespace. |
| Strings.IntDecimalRoundTrip | cloudflare-worker/cloudflare-edition.js:161 | The decimal rendering of a user id reads back as that id. |
| Strings.IntToDecimalInjective | telegram-bot/telegram-manager.py:44 | Two ids with the same decimal rendering are the same id. |
| Strings.DecimalIsPlainToken | telegram-bot/telegram-manager.py:42-44 | A rendered id is non-empty and has no whitespace, comma or newline, so it can only match a token exactly. |
| Strings.Take | cloudflare-worker/cloudflare-edition.js:318 | Cutting the error body at 200 gives a prefix of the body, whose length is the smaller of the two. |
| Effects.WorkflowCount | cloudflare-worker/cloudflare-edition.js:480-498 | A trace has no workflow calls exactly when none of its calls goes to the workflow provider. |
| Effects.WorkflowCountPrefix | cloudflare-worker/cloudflare-edition.js:128-154 | An interrupted trace makes no more workflow calls than the full plan. |
| Effects.Run | cloudflare-worker/cloudflare-edition.js:128-154 | Calls go out in order until the faulty chat-provider call, which goes out and throws. The trace is a prefix of the plan. The run aborts exactly when the fault falls within the plan's chat-provider calls. Otherwise the trace is the whole plan. |
| Effects.Perform | telegram-bot/telegram-manager.py:94-131 | The calls made are exactly those `Effects.Run` makes under the same fault. A handler that raises after its calls ends aborted as well. With no fault the trace is the whole plan. No more workflow calls are made than planned. |
| Messaging.SendPayload | cloudflare-worker/cloudflare-edition.js:169-183 | A sendMessage payload starts with the chat and then the text, and has at most five keys. |
| Messaging.EditPayload | cloudflare-worker/cloudflare-edition.js:212-224 | An editMessageText payload starts with the chat, the message and the text, in that order, and has at most five keys. |
| Messaging.AnswerPayload | cloudflare-worker/cloudflare-edition.js:253-263 | An answerCallbackQuery payload starts with the query id and has at most three keys. |
| Messaging.With | cloudflare-worker/cloudflare-edition.js:174-183 | An optional key is added only when its option is truthy, after the existing keys. Keys stay unique, and the key reads back as the option or as absent. |
| Messaging.WithKeepsOthers | cloudflare-worker/cloudflare-edition.js:174-183 | Adding an optional key leaves every other key's value as it was. |
| Messaging.SendPayloadKeys | cloudflare-worker/cloudflare-edition.js:169-183 | A sendMessage payload names each key once, and only the five keys the call knows. |
| Messaging.SendPayloadValues | cloudflare-worker/cloudflare-edition.js:169-183 | A sendMessage payload always carries the chat and the text. It carries parse mode, markup and preview flag exactly when each option is truthy. |
| Messaging.EditPayloadKeys | cloudflare-worker/cloudflare-edition.js:212-224 | An editMessageText payload names each key once, and only the five keys the call knows. |
| Messaging.EditPayloadValues | cloudflare-worker/cloudflare-edition.js:212-224 | An editMessageText payload always carries chat, message and text, and carries each option exactly when it is truthy. |
| Messaging.AnswerPayloadShape | cloudflare-worker/cloudflare-edition.js:253-263 | An answerCallbackQuery payload always carries the query id, and carries the toast text and alert flag exactly when they are truthy. |
| Messaging.DefaultOptionsGiveBarePayloads | cloudflare-worker/cloudflare-edition.js:167-172 | Without options, each payload is exactly its required keys. |
| Workflow.WorkerDispatchBody | cloudflare-worker/cloudflare-edition.js:296-304 | The Worker posts `ref` set to the branch, then `inputs` holding chatid, image, bottoken and cloudflaretoken, in that order, all as strings. |
| Workflow.ManagerDispatchBody | telegram-bot/telegram-manager.py:54-61 | The polling edition posts `ref` set to `master`, then `inputs` holding chatid, image and bottoken, in that order, all as strings. |
| Workflow.WorkerTriggerResult | cloudflare-worker/cloudflare-edition.js:281-333 | Success iff a 2xx response, and then the fixed message. An error status gives "❌ HTTP Error: status", a newline, and exactly the first 200 characters of the body, or the whole body when it is shorter. A network error gives its description. |
| Workflow.WorkerCancelResult | cloudflare-worker/cloudflare-edition.js:354-372 | Success iff a 2xx response, with "🟠 Workflow id is being stopped!". Otherwise "❌ Failed to stop: status", or the network-error message. |
| Workflow.ManagerTriggerResult | telegram-bot/telegram-manager.py:63-72 | Failure only for 4xx/5xx, which shows the status and the whole body, or on a network error. Every other status is success. |
| Workflow.ManagerCancelResult | telegram-bot/telegram-manager.py:83-92 | Failure only for 4xx/5xx or a network error. Otherwise the stopping message for that run id. |
| Workflow.HttpErrorMessageInjective | cloudflare-worker/cloudflare-edition.js:318 | An HTTP error message determines both the status and the shown body. |
| Workflow.WorkerTriggerErrorDeterminesOutcome | cloudflare-worker/cloudflare-edition.js:313-320 | Two error responses give the same Worker result iff they have the same status and the same first 200 body characters. |
| Workflow.TriggerEditionsAgree | telegram-bot/telegram-manager.py:63-72 | For 2xx, 4xx and 5xx responses with bodies of at most 200 characters, and for the same network-error description, both editions report the same result. |
| Workflow.TriggerEditionsDiffer | cloudflare-worker/cloudflare-edition.js:313-320 | A 302 is a Worker failure but a polling success. A 500 with a body over 200 characters gives different messages. |
| Workflow.CancelEditionsAgree | telegram-bot/telegram-manager.py:83-92 | Where both editions classify the status alike, their cancel results coincide. |
| Workflow.ServerErrorScenario | cloudflare-worker/cloudflare-edition.js:313-320 | A 500 with body "server error" gives "❌ HTTP Error: 500\nserver error" in both editions. |
| Commands.Lookup | cloudflare-worker/cloudflare-edition.js:414 | The lookup finds an image iff the name is listed, and then gives the first entry with that name. |
| Commands.TruthyIsMembership | telegram-bot/telegram-manager.py:101-102 | In a well-formed table, the "image found and non-empty" test is exactly membership, and it yields that entry's image. |
| Commands.PlainNameHasNoSeparators | cloudflare-worker/cloudflare-edition.js:21-43 | A table name contains no space, `@`, `/` or newline. |
| Commands.WorkerTableWellFormed | cloudflare-worker/cloudflare-edition.js:21-43 | The Worker's 14 names are distinct and plain, and every image is non-empty. No name is `start`, `help` or `actionslist`. |
| Commands.ManagerTableWellFormed | telegram-bot/telegram-manager.py:24-38 | The polling table's 13 names are distinct and plain, and every image is non-empty. |
| Commands.WorkerLines | cloudflare-worker/cloudflare-edition.js:468 | One `` • `/name` `` line per name, in order. |
| Commands.ManagerLines | telegram-bot/telegram-manager.py:142 | One `/name` line per name, in order. |
| Commands.LineGivesName | cloudflare-worker/cloudflare-edition.js:468 | The command name can be read back from its line in either rendering. |
| Commands.WorkerCommandListLines | cloudflare-worker/cloudflare-edition.js:468 | The Worker's list, split at newlines, is one line per table entry in declaration order, with no line repeated. |
| Commands.ManagerCommandListLines | telegram-bot/telegram-manager.py:142 | The polling list, split at newlines, is one `/name` line per entry in insertion order, with no line repeated. |
| Auth.WorkerAllowList | cloudflare-worker/cloudflare-edition.js:160 | The Worker's tokens are the comma-split pieces of the setting, each trimmed, one per piece. |
| Auth.ManagerAllowList | telegram-bot/telegram-manager.py:19 | The polling edition's tokens are comma-free, and joined with commas they give back the setting ("" when missing). |
| Auth.WorkerIsAuthorized | cloudflare-worker/cloudflare-edition.js:159-162 | The Worker admits a sender iff some comma-separated piece of the setting, once trimmed, is the sender's id in decimal. A missing or empty setting admits nobody. |
| Auth.ManagerIsAuthorized | telegram-bot/telegram-manager.py:42-44 | The polling edition admits a sender iff some comma-separated piece of the setting, untrimmed, is the sender's id in decimal. A missing or empty setting admits nobody. |
| Auth.EmptyListAuthorizesNobody | cloudflare-worker/cloudflare-edition.js:159-162 | A missing or empty list reads as [""] in both editions and admits no id. |
| Auth.JoinedListAuthorizes | cloudflare-worker/cloudflare-edition.js:159-162 | For a list written as comma-joined ids, the polling edition admits exactly the listed ids. The Worker admits exactly those equal to a trimmed listed id. |
| Auth.ManagerAdmitsOnlyWorkerAdmitted | telegram-bot/telegram-manager.py:42-44 | Whoever the polling edition admits, the Worker admits too. |
| Auth.TwoTokens | cloudflare-worker/cloudflare-edition.js:160 | A setting of two comma-free ids around one comma splits into exactly those two ids. |
| Auth.PaddedListSplitsEditions | telegram-bot/telegram-manager.py:19 | Under "111, 222" the Worker admits 222 and the polling edition does not. |
| Auth.UnlistedIdRejected | cloudflare-worker/cloudflare-edition.js:159-162 | Under "111,222" both editions reject 999. |
| Worker.ExtractCommand | cloudflare-worker/cloudflare-edition.js:398 | The command word has no space or `@`. For a text starting with `/` it is the unique word that follows the slash and ends at the end of the text, a space or an `@`. |
| Worker.CommandOfUnique | cloudflare-worker/cloudflare-edition.js:398 | A text has at most one such command word. |
| Worker.MentionStripping | cloudflare-worker/cloudflare-edition.js:397-398 | `/name` followed by nothing, by a space or by an `@` mention gives back `name`. |
| Worker.MentionStrippingExample | cloudflare-worker/cloudflare-edition.js:398 | "/chrome@mybot extra args" and "/chrome" both give `chrome`. |
| Worker.RouteIn | cloudflare-worker/cloudflare-edition.js:402-420 | `start`, `help` and `actionslist` route to their menus and nothing else does. A launch route carries a non-empty image that the table lists for that name. A command routes nowhere only if it is not reserved and the table has no non-empty image for it. |
| Worker.RouteInFollowsTable | cloudflare-worker/cloudflare-edition.js:402-420 | With a well-formed table avoiding the reserved names: a command routes to a launch iff it is listed, and then with its own image. It routes nowhere iff it is neither listed nor reserved. |
| Worker.RoutingFollowsTable | cloudflare-worker/cloudflare-edition.js:402-420 | The same, over the Worker's own table. |
| Worker.BrowserEffects | cloudflare-worker/cloudflare-edition.js:480-498 | The launch is three calls. The first is the "🔄 Starting image instance..." acknowledgment to the chat id as a string. The second is the dispatch to the configured repository and workflow file, with the Worker's body. The third is the report of the trigger result. |
| Worker.MenuReply | cloudflare-worker/cloudflare-edition.js:426-475 | `/start`, `/help` and `/actionslist` each send one Markdown message to the chat. `/start` sends the greeting with the sender's first name ("User" if missing) and the three-row start keyboard for the configured repository. `/help` sends the guide ending in the repository link, with link previews off. `/actionslist` sends the list heading, the Worker's command list, the usage note and the stop note, with no keyboard. |
| Worker.FlowEffects | cloudflare-worker/cloudflare-edition.js:402-420 | A flow makes at most three calls, and calls the workflow provider iff it is a launch. |
| Worker.MessageGate | cloudflare-worker/cloudflare-edition.js:385-395 | An unauthorized sender gets exactly the denial. An authorized non-command (no text, or no leading `/`) gets no call. |
| Worker.MessageEffectsIn | cloudflare-worker/cloudflare-edition.js:378-421 | A message makes at most three calls and at most one workflow call, and a workflow call only for an authorized sender's command text. |
| Worker.MessageMenus | cloudflare-worker/cloudflare-edition.js:402-411 | From an authorized sender, `/start`, `/help` and `/actionslist` each give exactly their one menu reply. |
| Worker.ActionsListReplyLines | cloudflare-worker/cloudflare-edition.js:467-475 | The `/actionslist` reply's list, split at newlines, is one `` • `/name` `` line per table entry, in table order. |
| Worker.HelpLinksRepository | cloudflare-worker/cloudflare-edition.js:438-456 | The `/help` guide ends with the same repository URL as the start keyboard's third button. |
| Worker.MessageLaunches | cloudflare-worker/cloudflare-edition.js:412-416 | A listed command from an authorized sender launches exactly its table image. |
| Worker.MessageUnknownIsSilent | cloudflare-worker/cloudflare-edition.js:412-419 | An unlisted, unreserved command makes no call. |
| Worker.MessageWorkflowCalls | cloudflare-worker/cloudflare-edition.js:378-421 | A message reaches the workflow provider iff the sender is authorized and the command word is listed, and then once. |
| Worker.MessageFlow | cloudflare-worker/cloudflare-edition.js:378-421 | The whole message flow over the Worker's table. An unauthorized sender gets the denial. A non-command is ignored. `start`, `help` and `actionslist` get their menu replies. A listed command launches its image. Any other command makes no call. The workflow is called iff an authorized sender's command is listed. |
| Worker.AckIndependentOfOutcome | cloudflare-worker/cloudflare-edition.js:486-493 | The acknowledgment and the dispatch are the same whatever the provider answers. |
| Worker.BrowserFlowFaults | cloudflare-worker/cloudflare-edition.js:480-498 | If the acknowledgment throws, the invocation stops before the dispatch. If the report throws, the dispatch has already gone out. |
| Worker.ClassifyCallback | cloudflare-worker/cloudflare-edition.js:524-556 | Button data means the command list iff "list_commands", the guide iff "show_help", and a cancel iff all decimal digits, with the data as run id. Anything else, including no data, is ignored. |
| Worker.MenuEdit | cloudflare-worker/cloudflare-edition.js:525-544 | Both menu buttons edit the pressed message in place, in Markdown, without a keyboard. The commands button shows the list heading, the Worker's command list and the usage note. The help button shows the quick guide. |
| Worker.ActionEffects | cloudflare-worker/cloudflare-edition.js:524-556 | At most two calls after the answer, with a workflow call iff the data is a run id. |
| Worker.CallbackEffects | cloudflare-worker/cloudflare-edition.js:503-557 | Every press is answered first, and at most two calls follow. A workflow call is made only for an authorized presser. |
| Worker.CallbackFlow | cloudflare-worker/cloudflare-edition.js:503-557 | An unauthorized presser gets one alert and nothing else. Otherwise the press is answered first. "list_commands" and "show_help" are then followed by exactly their menu edit. A run id leads to exactly the cancel of that run, then the edit with its result. Other data leads to nothing more. A cancel happens iff the presser is authorized and the data is all digits. |
| Worker.CallbackMenus | cloudflare-worker/cloudflare-edition.js:524-544 | An authorized press of either menu button gives the answer, then that menu's edit. |
| Worker.CommandListEditLines | cloudflare-worker/cloudflare-edition.js:525-533 | The commands button's text plus the stop note is exactly the `/actionslist` reply. Its list, split at newlines, is one line per Worker table entry, in table order. |
| Worker.StartMenuButtonsLeadToMenus | cloudflare-worker/cloudflare-edition.js:434-440 | Each data button of the `/start` keyboard leads to a menu flow, never to a cancel. The third row is the repository link. |
| Worker.UpdateEffects | cloudflare-worker/cloudflare-edition.js:128-148 | A button press goes to the button handler, even beside a message; otherwise a message goes to the message handler. An update makes at most one workflow call, and an update with neither a press nor a message makes no call. |
| Worker.HandleWebhook | cloudflare-worker/cloudflare-edition.js:128-154 | The reply is 200 "OK" or 500 "Error". An unparsable body gives 500 and no call. A 500 occurs iff a chat-provider call throws, and the calls made are those `Effects.Run` makes: every planned call up to and including the one that throws. With no fault, every planned call is made and the reply is 200. At most one workflow call is made. |
| Worker.AtMostOneWorkflowCall | cloudflare-worker/cloudflare-edition.js:128-154 | No update plans more than one workflow call. |
| Worker.CallbackTakesPrecedence | cloudflare-worker/cloudflare-edition.js:134-145 | A button press is handled the same whether or not a message is also present. |
| Worker.EmptyUpdateIgnored | cloudflare-worker/cloudflare-edition.js:147-148 | An update with neither part gets 200 "OK" and no call. |
| Worker.UnauthorizedNeverTriggers | cloudflare-worker/cloudflare-edition.js:385-389 | An unauthorized sender never reaches the workflow provider, and gets exactly one call (the denial) when nothing throws. |
| Worker.BrowserCommandScenario | cloudflare-worker/cloudflare-edition.js:480-498 | An authorized bare `/name` of a listed command gives 200. The three launch calls are made in order, the second being the dispatch with that name's image. |
| Worker.DeniedScenario | cloudflare-worker/cloudflare-edition.js:385-389 | Sender 999 under "111,222" gets exactly the denial and a 200. |
| Worker.CancelAccepted | cloudflare-worker/cloudflare-edition.js:546-554 | An authorized press whose data is a run id, with a 2xx cancel, gives the answer, then the cancel of that run, then the edit "🟠 Workflow id is being stopped!". |
| Worker.CancelScenario | cloudflare-worker/cloudflare-edition.js:546-554 | Data "123456" cancels run "123456" and reports it stopping. |
| Manager.CommandKey | telegram-bot/telegram-manager.py:100 | There is a key iff the text has a `/`. The key starts right after the first `/`, contains no `/`, and ends at the next `/` or at the end of the text. |
| Manager.CommandKeyReadsSecondPiece | telegram-bot/telegram-manager.py:100 | The key of `pre/key` or `pre/key/...` is `key`. |
| Manager.CommandKeyNeedsSlash | telegram-bot/telegram-manager.py:100 | A key exists iff the text contains `/` (otherwise the indexing raises), and it never contains `/`. |
| Manager.LaunchEffects | telegram-bot/telegram-manager.py:106-114 | A launch is three calls, two to the chat and one dispatch in the middle. |
| Manager.LaunchInOrder | telegram-bot/telegram-manager.py:54-61 | The launch acknowledges the image, dispatches on `master` with the chat as a string, the image and the bot token, then replies with the trigger result. |
| Manager.StartBrowserIn | telegram-bot/telegram-manager.py:94-114 | The browser handler never plans more than one workflow call. |
| Manager.StartBrowser | telegram-bot/telegram-manager.py:94-114 | Over the polling table, the handler raises only before making any call. It dispatches exactly when an authorized sender's key is listed. |
| Manager.StartBrowserFlow | telegram-bot/telegram-manager.py:94-114 | An unauthorized sender gets exactly the denial. A text with no key raises before any call. A key not in the table gets exactly "❌ Invalid command!". A listed key gets its launch with its own image. The workflow is called iff the sender is authorized and the key is listed. |
| Manager.PlainCommandLaunches | telegram-bot/telegram-manager.py:100-114 | A bare `/name` of a listed command launches its image. |
| Manager.SuffixedCommandInvalid | telegram-bot/telegram-manager.py:100-104 | A listed name followed by a mention or an argument becomes a key the table lacks: one "invalid" reply, and no dispatch. |
| Manager.ButtonPress | telegram-bot/telegram-manager.py:116-131 | The button handler never raises. |
| Manager.ButtonFlow | telegram-bot/telegram-manager.py:116-131 | An unauthorized presser gets one alert and nothing else. An authorized press is answered, then cancels the run its data names, with no digit check ("None" when there is no data), then edits the pressed message to the cancel result, whatever the outcome: stopping, "❌ Failed to stop: status", or the network error. The workflow is called iff the presser is authorized. |
| Manager.ActionsListIn | telegram-bot/telegram-manager.py:136-149 | The list handler makes exactly one chat call and no workflow call. |
| Manager.ActionsListFlow | telegram-bot/telegram-manager.py:136-149 | An unauthorized sender gets the denial. Otherwise one Markdown message to the sender's chat, with no keyboard and no preview option, whose list is one `/name` line per table entry, in insertion order. |
| Manager.Handle | telegram-bot/telegram-manager.py:94-131 | A handler's calls are a prefix of its plan, with at most one workflow call. With no fault the whole plan is made. |
| Manager.PlanCallsAtMostOnce | telegram-bot/telegram-manager.py:94-131 | No handler plans more than one workflow call. |
| Manager.UnauthorizedNeverTriggers | telegram-bot/telegram-manager.py:96-98 | An unauthorized sender never reaches the workflow provider, and gets exactly the denial when nothing throws. |
| Editions.SharedCommandsAgree | telegram-bot/telegram-manager.py:24-38 | A name listed in both tables maps to the same image in both. |
| Editions.TablesDiffer | telegram-bot/telegram-manager.py:24-38 | Only the polling table has `latest`, and only the Worker's has `tor` and `waterfox`. Every other polling command is a Worker command, at a given position. |
| Editions.PlainSharedCommandAgrees | telegram-bot/telegram-manager.py:100-114 | A bare `/name` in both tables launches the same image in both editions. |
| Editions.SuffixSplitsEditions | telegram-bot/telegram-manager.py:100-104 | A listed name followed by a mention or an argument launches in the Worker and is invalid in the polling edition. |
| Editions.MentionExample | telegram-bot/telegram-manager.py:100-104 | `/chrome@mybot` launches google-chrome in the Worker and is invalid in the polling edition. |
| Editions.PollingOnlyCommand | telegram-bot/telegram-manager.py:34 | A bare command only the polling table lists launches there and is silent in the Worker. |
| Editions.LatestSplitsEditions | telegram-bot/telegram-manager.py:34 | `/latest` launches `latest` in the polling edition and makes no call in the Worker. |
| Editions.SettingFallbacksDiffer | telegram-bot/telegram-manager.py:20-21 | The Worker's and the polling edition's setting fallbacks differ iff the setting is present but empty (with a non-empty default). |
| Editions.EmptySettingSplitsEditions | telegram-bot/telegram-manager.py:20 | An empty repository setting means the default repository in the Worker and "" in the polling edition. |
| Editions.ButtonDataSplitsEditions | telegram-bot/telegram-manager.py:129-131 | Button data that is not all digits never cancels in the Worker, but is sent as a run id in the polling edition. |
| Editions.ListCommandsButtonExample | telegram-bot/telegram-manager.py:129-131 | The "list_commands" button makes no workflow call in the Worker, which answers the press and edits the message into the command-list menu. The polling edition cancels run "list_commands". |

## Left out

- The HTTP shell of the Worker: request path and method dispatch, the admin endpoints (webhook setup, information, deletion, test message, health, dashboard), and their responses.
- Network calls themselves: URLs, headers, tokens, timeouts, JSON serialisation and response parsing. Each call is an effect with its arguments, and the provider's answer is a parameter.
- Logging, on both sides.
- A network failure is described by one shared text (`NetErr(msg)`). For the same physical failure, the Worker shows `error.message` and the polling edition shows `str(e)`, which can differ; `Workflow.TriggerEditionsAgree` compares the editions only for the same description.
- The polling edition's start-up and handler registration. Which handler an update reaches is decided by python-telegram-bot, which is not part of this model. `Manager.Invocation` names the handler reached.
- How python-telegram-bot shapes its own request payloads for `reply_text`, `answer` and `edit_message_text`. These are modelled as the same calls with the same options as in the Worker.
- The tables are ordered sequences of pairs, not maps, because both command lists follow declaration order. A JavaScript lookup also finds inherited object keys such as `constructor`; the model's lookup sees only the declared entries.
- Character positions count Unicode code points. JavaScript counts UTF-16 units in `substring(0, 200)` and `substring(1)`, so bodies with characters outside the Basic Multilingual Plane would be cut at different places.
- Numbers are unbounded integers, rendered in plain decimal. JavaScript renders numbers beyond 2^53 differently.
- The model's parsed body is either absent or an update object. A JSON body `null`, or another value that is not an object, makes the real handler throw when it reads `callback_query`, and the delivery is answered with 500 and no call. The model folds that into the unparsable case (`body == None`).
- An update whose message lacks its `chat` or `from` object, or a callback without its message, makes the real handler throw. The model's message and press types always carry them.
- Worker.WelcomeText: the part of the greeting after the name is an unspecified constant, because its wording carries no logic.
- Worker.HelpText: the guide before the repository link is an unspecified constant, for the same reason.
- Worker.QuickGuideText: the short guide shown from the menu button is an unspecified constant, for the same reason.
- Required settings (bot token, workflow token) are taken as present. The polling edition refuses to start without them, and the Worker cannot work without them.

=== FILE: auth.dfy ===
/** The allow-list check of both editions. The configured list is a
    comma-separated string; a sender is authorized when the decimal form
    of their numeric id is one of its tokens. The worker trims each token,
    the polling bot does not. */
module Auth {
  import opened Strings
  import opened Effects

  /** The denial a message sender gets. */
  const NotAuthorizedText := "⛔ You are not authorized to use this bot."

  /** The denial a button presser gets, as an alert. */
  const NotAuthorizedActionText := "⛔ You are not authorized to perform this action."

  /** How a denied button press is answered: the denial, as an alert. */
  const DenialAlert := AnswerOptions(Some(JStr(NotAuthorizedActionText)), Some(JBool(true)))

  /** The configured list, or "" when the setting is missing. Both
      editions fall back to "", so a missing and an empty setting agree. */
  function ListText(configured: Option<string>): string {
    if configured.Some? then configured.value else ""
  }

  /** The worker's tokens: split on commas, each trimmed. */
  function WorkerAllowList(configured: Option<string>): (ids: seq<string>)
    ensures |ids| == |Split(ListText(configured), ',')|
    ensures forall i :: 0 <= i < |ids| ==> ids[i] == Trim(Split(ListText(configured), ',')[i])
  {
    var raw := Split(ListText(configured), ',');
    seq(|raw|, i requires 0 <= i < |raw| => Trim(raw[i]))
  }

  /** The polling bot's tokens: split on commas and nothing more, so they
      rejoin to the configured text. */
  function ManagerAllowList(configured: Option<string>): (ids: seq<string>)
    ensures |ids| >= 1 && Join(ids, ',') == ListText(configured)
    ensures forall i :: 0 <= i < |ids| ==> ',' !in ids[i]
  {
    JoinSplit(ListText(configured), ',');
    Split(ListText(configured), ',')
  }

  /** The worker admits a sender when some comma-separated piece of the
      setting, once trimmed, is the sender's id in decimal. A missing or
      empty setting admits nobody. */
  function WorkerIsAuthorized(userId: int, configured: Option<string>): (ok: bool)
    ensures ok <==> exists i :: 0 <= i < |Split(ListText(configured), ',')|
                           && Trim(Split(ListText(configured), ',')[i]) == IntToDecimal(userId)
    ensures ListText(configured) == "" ==> !ok
  {
    var ids := WorkerAllowList(configured);
    assert Split("", ',') == [""] && Trim("") == "";
    DecimalIsPlainToken(userId);
    assert forall i :: 0 <= i < |ids| ==> ids[i] == Trim(Split(ListText(configured), ',')[i]);
    IntToDecimal(userId) in ids
  }

  /** The polling bot admits a sender when some comma-separated piece of
      the setting, untrimmed, is the sender's id in decimal. A missing or
      empty setting admits nobody. */
  function ManagerIsAuthorized(userId: int, configured: Option<string>): (ok: bool)
    ensures ok <==> exists i :: 0 <= i < |Split(ListText(configured), ',')|
                           && Split(ListText(configured), ',')[i] == IntToDecimal(userId)
    ensures ListText(configured) == "" ==> !ok
  {
    var ids := ManagerAllowList(configured);
    assert ids == Split(ListText(configured), ',');
    assert Split("", ',') == [""];
    DecimalIsPlainToken(userId);
    IntToDecimal(userId) in ids
  }

  /** With no list configured, or an empty one, the list is [""], which no
      id renders as: nobody is authorized by either edition. */
  lemma EmptyListAuthorizesNobody(userId: int, configured: Option<string>)
    requires configured == None || configured == Some("")
    ensures ManagerAllowList(configured) == [""] && WorkerAllowList(configured) == [""]
    ensures !WorkerIsAuthorized(userId, configured) && !ManagerIsAuthorized(userId, configured)
  {
    assert ListText(configured) == "";
    assert Split("", ',') == [""];
    assert Trim("") == "";
    assert WorkerAllowList(configured) == [""];
    DecimalIsPlainToken(userId);
  }

  /** A list written as ids joined by commas reads back as exactly those
      ids, so the polling bot authorizes exactly the listed ids and the
      worker exactly the listed ids once trimmed. */
  lemma JoinedListAuthorizes(userId: int, ids: seq<string>)
    requires |ids| >= 1
    requires forall i :: 0 <= i < |ids| ==> ',' !in ids[i]
    ensures ManagerAllowList(Some(Join(ids, ','))) == ids
    ensures ManagerIsAuthorized(userId, Some(Join(ids, ','))) <==> IntToDecimal(userId) in ids
    ensures WorkerIsAuthorized(userId, Some(Join(ids, ',')))
        <==> exists i :: 0 <= i < |ids| && Trim(ids[i]) == IntToDecimal(userId)
  {
    SplitJoin(ids, ',');
    var w := WorkerAllowList(Some(Join(ids, ',')));
    assert forall i :: 0 <= i < |ids| ==> w[i] == Trim(ids[i]);
  }

  /** Whoever the polling bot admits, the worker admits too: a rendered id
      has no surrounding whitespace, so trimming cannot lose it. */
  lemma ManagerAdmitsOnlyWorkerAdmitted(userId: int, configured: Option<string>)
    requires ManagerIsAuthorized(userId, configured)
    ensures WorkerIsAuthorized(userId, configured)
  {
    var d := IntToDecimal(userId);
    var raw := ManagerAllowList(configured);
    var i :| 0 <= i < |raw| && raw[i] == d;
    DecimalIsPlainToken(userId);
    TrimKeepsUnpadded(d);
    assert WorkerAllowList(configured)[i] == d;
  }

  /** The converse fails: a space after the comma is trimmed away by the
      worker but kept by the polling bot, which then rejects the id. */
  lemma PaddedListSplitsEditions()
    ensures WorkerIsAuthorized(222, Some("111, 222"))
    ensures !ManagerIsAuthorized(222, Some("111, 222"))
  {
    PaddedListAdmitted();
    PaddedListRejected();
  }

  /** A setting of two comma-free tokens around one comma splits into
      exactly those two tokens. */
  lemma TwoTokens(a: string, b: string)
    requires ',' !in a && ',' !in b
    ensures Split(a + [','] + b, ',') == [a, b]
  {
    SplitAfterPiece(a, ',', b);
    SplitWithoutSeparator(b, ',');
  }

  lemma Rendered222()
    ensures IntToDecimal(222) == "222"
  {
  }

  lemma TrimmedPadded222()
    ensures Trim(" 222") == "222"
  {
    assert TrimStart(" 222") == "222" by {
      assert " 222"[1..] == "222";
    }
    TrimKeepsUnpadded("222");
  }

  lemma PaddedListAdmitted()
    ensures WorkerIsAuthorized(222, Some("111, 222"))
  {
    assert "111, 222" == "111" + [','] + " 222";
    TwoTokens("111", " 222");
    Rendered222();
    TrimmedPadded222();
    assert WorkerAllowList(Some("111, 222"))[1] == "222";
  }

  lemma PaddedListRejected()
    ensures !ManagerIsAuthorized(222, Some("111, 222"))
  {
    assert "111, 222" == "111" + [','] + " 222";
    TwoTokens("111", " 222");
    Rendered222();
  }

  /** An id missing from an unpadded list is rejected by both editions. */
  lemma UnlistedIdRejected()
    ensures !WorkerIsAuthorized(999, Some("111,222"))
    ensures !ManagerIsAuthorized(999, Some("111,222"))
  {
    UnlistedIdRejectedByWorker();
    UnlistedIdRejectedByManager();
  }

  lemma UnlistedIdRejectedByWorker()
    ensures !WorkerIsAuthorized(999, Some("111,222"))
  {
    UnpaddedWorkerList();
    Rendered999();
    NotInPair("999", "111", "222", WorkerAllowList(Some("111,222")));
  }

  lemma NotInPair(x: string, a: string, b: string, w: seq<string>)
    requires |w| == 2 && w[0] == a && w[1] == b
    requires x != a && x != b
    ensures x !in w
  {
    assert forall i :: 0 <= i < |w| ==> w[i] == a || w[i] == b;
  }

  lemma UnpaddedWorkerList()
    ensures var w := WorkerAllowList(Some("111,222")); |w| == 2 && w[0] == "111" && w[1] == "222"
  {
    assert "111,222" == "111" + [','] + "222";
    TwoTokens("111", "222");
    TrimKeepsUnpadded("111");
    TrimKeepsUnpadded("222");
  }

  lemma UnlistedIdRejectedByManager()
    ensures !ManagerIsAuthorized(999, Some("111,222"))
  {
    assert "111,222" == "111" + [','] + "222";
    TwoTokens("111", "222");
    Rendered999();
  }

  lemma Rendered999()
    ensures IntToDecimal(999) == "999"
  {
  }
}

=== FILE: commands.dfy ===
/** The static command-to-image tables of both editions, kept in their
    declaration order, and the command lists rendered from them. */
module Commands {
  import opened Strings
  import opened Effects

  type Table = seq<(string, string)>

  /** `BROWSER_COMMANDS` of the worker, in declaration order. */
  const WorkerTable: Table := [
    ("firefox", "firefox"),
    ("tor", "tor-browser"),
    ("waterfox", "waterfox"),
    ("chromium", "chromium"),
    ("chrome", "google-chrome"),
    ("ungoogled_chromium", "ungoogled-chromium"),
    ("edge", "microsoft-edge"),
    ("brave", "brave"),
    ("vivaldi", "vivaldi"),
    ("opera", "opera"),
    ("xfce", "xfce"),
    ("kde", "kde"),
    ("remmina", "remmina"),
    ("vlc", "vlc")
  ]

  /** `BROWSER_COMMANDS` of the polling bot, in insertion order. */
  const ManagerTable: Table := [
    ("chrome", "google-chrome"),
    ("kde", "kde"),
    ("chromium", "chromium"),
    ("edge", "microsoft-edge"),
    ("opera", "opera"),
    ("vivaldi", "vivaldi"),
    ("ungoogled_chromium", "ungoogled-chromium"),
    ("brave", "brave"),
    ("firefox", "firefox"),
    ("latest", "latest"),
    ("remmina", "remmina"),
    ("xfce", "xfce"),
    ("vlc", "vlc")
  ]

  /** The commands the worker routes to their own flows. */
  const Reserved: set<string> := {"start", "help", "actionslist"}

  /** The command names in table order, as both editions enumerate them. */
  function CommandNames(t: Table): seq<string> {
    seq(|t|, i requires 0 <= i < |t| => t[i].0)
  }

  predicate Distinct(xs: seq<string>) {
    forall i, j :: 0 <= i < j < |xs| ==> xs[i] != xs[j]
  }

  /** The image a command names, as the first matching entry. */
  function Lookup(t: Table, cmd: string): (r: Option<string>)
    ensures r.Some? <==> exists i :: 0 <= i < |t| && t[i].0 == cmd
    ensures r.Some? ==>
      exists i :: 0 <= i < |t| && t[i] == (cmd, r.value) && (forall j :: 0 <= j < i ==> t[j].0 != cmd)
    decreases |t|
  {
    if |t| == 0 then None
    else if t[0].0 == cmd then Some(t[0].1)
    else Lookup(t[1..], cmd)
  }

  /** `BROWSER_COMMANDS[cmd]` taken as a condition, as both editions do:
      present and a non-empty image name. */
  function TruthyImage(t: Table, cmd: string): Option<string> {
    match Lookup(t, cmd)
    case Some(image) => if image != "" then Some(image) else None
    case None => None
  }

  /** A command name as both tables write them: lower-case letters and
      underscores. */
  predicate PlainName(n: string) {
    n != "" && forall k :: 0 <= k < |n| ==> ('a' <= n[k] <= 'z' || n[k] == '_')
  }

  /** A plain name holds none of the characters the editions split on. */
  lemma PlainNameHasNoSeparators(n: string)
    requires PlainName(n)
    ensures ' ' !in n && '@' !in n && '/' !in n && '\n' !in n
  {
  }

  /** A table is well formed when its names are distinct and plain, and
      every image is non-empty. */
  predicate WellFormed(t: Table) {
    && Distinct(CommandNames(t))
    && (forall i :: 0 <= i < |t| ==> t[i].1 != "" && PlainName(t[i].0))
  }

  /** In a well-formed table the truthiness test is plain membership, and
      the image found is the one declared for that name. */
  lemma {:induction false} TruthyIsMembership(t: Table, cmd: string)
    requires WellFormed(t)
    ensures TruthyImage(t, cmd).Some? <==> exists i :: 0 <= i < |t| && t[i].0 == cmd
    ensures forall i :: 0 <= i < |t| && t[i].0 == cmd ==> TruthyImage(t, cmd) == Some(t[i].1)
    decreases |t|
  {
    if |t| > 0 && t[0].0 != cmd {
      var rest := t[1..];
      assert WellFormed(rest) by {
        forall i, j | 0 <= i < j < |rest| ensures CommandNames(rest)[i] != CommandNames(rest)[j] {
          assert CommandNames(t)[i + 1] != CommandNames(t)[j + 1];
        }
      }
      TruthyIsMembership(rest, cmd);
    } else if |t| > 0 {
      forall i | 0 < i < |t| ensures t[i].0 != t[0].0 {
        assert CommandNames(t)[0] != CommandNames(t)[i];
      }
    }
  }

  /** A cheap fingerprint of a name: its length and first character. */
  function Fingerprint(s: string): int {
    |s| * 0x110000 + (if |s| > 0 then s[0] as int else 0)
  }

  /** Names with pairwise different fingerprints are distinct. */
  lemma DistinctByFingerprint(t: Table, prints: seq<int>)
    requires |prints| == |t|
    requires forall i :: 0 <= i < |t| ==> prints[i] == Fingerprint(t[i].0)
    requires forall i, j :: 0 <= i < j < |prints| ==> prints[i] != prints[j]
    ensures Distinct(CommandNames(t))
  {
  }

  /** The worker's table is well formed and avoids the reserved names, so
      the three named flows never shadow a launch command. */
  lemma WorkerTableWellFormed()
    ensures WellFormed(WorkerTable)
    ensures forall i :: 0 <= i < |WorkerTable| ==> WorkerTable[i].0 !in Reserved
  {
    WorkerNamesDistinct();
    WorkerEntriesPlain();
    WorkerAvoidsReserved();
  }

  lemma WorkerNamesDistinct()
    ensures Distinct(CommandNames(WorkerTable))
  {
    var k := 0x110000;
    DistinctByFingerprint(WorkerTable, [
      7 * k + 'f' as int, 3 * k + 't' as int, 8 * k + 'w' as int, 8 * k + 'c' as int,
      6 * k + 'c' as int, 18 * k + 'u' as int, 4 * k + 'e' as int, 5 * k + 'b' as int,
      7 * k + 'v' as int, 5 * k + 'o' as int, 4 * k + 'x' as int, 3 * k + 'k' as int,
      7 * k + 'r' as int, 3 * k + 'v' as int]);
  }

  lemma WorkerEntriesPlain()
    ensures forall i :: 0 <= i < |WorkerTable| ==> WorkerTable[i].1 != "" && PlainName(WorkerTable[i].0)
  {
  }

  lemma WorkerAvoidsReserved()
    ensures forall i :: 0 <= i < |WorkerTable| ==> WorkerTable[i].0 !in Reserved
  {
  }

  lemma ManagerTableWellFormed()
    ensures WellFormed(ManagerTable)
  {
    ManagerNamesDistinct();
    ManagerEntriesPlain();
  }

  lemma ManagerNamesDistinct()
    ensures Distinct(CommandNames(ManagerTable))
  {
    var k := 0x110000;
    DistinctByFingerprint(ManagerTable, [
      6 * k + 'c' as int, 3 * k + 'k' as int, 8 * k + 'c' as int, 4 * k + 'e' as int,
      5 * k + 'o' as int, 7 * k + 'v' as int, 18 * k + 'u' as int, 5 * k + 'b' as int,
      7 * k + 'f' as int, 6 * k + 'l' as int, 7 * k + 'r' as int, 4 * k + 'x' as int,
      3 * k + 'v' as int]);
  }

  lemma ManagerEntriesPlain()
    ensures forall i :: 0 <= i < |ManagerTable| ==> ManagerTable[i].1 != "" && PlainName(ManagerTable[i].0)
  {
  }

  /** The acknowledgment both editions send before a launch. */
  function StartingText(image: string): string {
    "🔄 Starting " + image + " instance..."
  }

  /** The heading both editions put above a command list. */
  const ListHead := "🎯 *Available Commands:*\n\n"

  /** One line of the worker's command list: `` • `/cmd` ``. */
  function WorkerLine(cmd: string): string {
    "• `/" + cmd + "`"
  }

  /** One line of the polling bot's command list: `/cmd`. */
  function ManagerLine(cmd: string): string {
    "/" + cmd
  }

  function WorkerLines(cmds: seq<string>): (ls: seq<string>)
    ensures |ls| == |cmds|
    ensures forall i :: 0 <= i < |cmds| ==> ls[i] == WorkerLine(cmds[i])
  {
    if |cmds| == 0 then [] else [WorkerLine(cmds[0])] + WorkerLines(cmds[1..])
  }

  function ManagerLines(cmds: seq<string>): (ls: seq<string>)
    ensures |ls| == |cmds|
    ensures forall i :: 0 <= i < |cmds| ==> ls[i] == ManagerLine(cmds[i])
  {
    if |cmds| == 0 then [] else [ManagerLine(cmds[0])] + ManagerLines(cmds[1..])
  }

  /** The worker's command list: one bulleted, code-formatted line per
      command, in table order, separated by newlines. */
  function WorkerCommandList(t: Table): string {
    Join(WorkerLines(CommandNames(t)), '\n')
  }

  /** The polling bot's command list: one `/name` line per command, in
      table order, separated by newlines. */
  function ManagerCommandList(t: Table): string {
    Join(ManagerLines(CommandNames(t)), '\n')
  }

  /** The command name can be read back from either rendering of its line. */
  lemma LineGivesName(cmd: string)
    ensures |WorkerLine(cmd)| == |cmd| + 5 && WorkerLine(cmd)[4..|cmd| + 4] == cmd
    ensures ManagerLine(cmd)[1..] == cmd
  {
  }

  /** Distinct names give distinct lines in both renderings. */
  lemma LinesInjective(a: string, b: string)
    requires a != b
    ensures WorkerLine(a) != WorkerLine(b) && ManagerLine(a) != ManagerLine(b)
  {
    LineGivesName(a);
    LineGivesName(b);
  }

  /** The worker's command list, read line by line, is one line per table
      entry in declaration order, with no line repeated. */
  lemma WorkerCommandListLines(t: Table)
    requires WellFormed(t) && |t| >= 1
    ensures var lines := Split(WorkerCommandList(t), '\n');
      && |lines| == |t|
      && (forall i :: 0 <= i < |t| ==> lines[i] == WorkerLine(t[i].0))
      && Distinct(lines)
  {
    var lines := WorkerLines(CommandNames(t));
    forall i | 0 <= i < |lines| ensures '\n' !in lines[i] {
      PlainNameHasNoSeparators(t[i].0);
      assert lines[i] == "• `/" + t[i].0 + "`";
    }
    SplitJoin(lines, '\n');
    forall i, j | 0 <= i < j < |lines| ensures lines[i] != lines[j] {
      assert CommandNames(t)[i] != CommandNames(t)[j];
      LinesInjective(t[i].0, t[j].0);
    }
  }

  /** The polling bot's command list, read line by line, is one `/cmd`
      line per table entry in insertion order, with no line repeated. */
  lemma ManagerCommandListLines(t: Table)
    requires WellFormed(t) && |t| >= 1
    ensures var lines := Split(ManagerCommandList(t), '\n');
      && |lines| == |t|
      && (forall i :: 0 <= i < |t| ==> lines[i] == ManagerLine(t[i].0))
      && Distinct(lines)
  {
    var lines := ManagerLines(CommandNames(t));
    forall i | 0 <= i < |lines| ensures '\n' !in lines[i] {
      PlainNameHasNoSeparators(t[i].0);
      assert lines[i] == "/" + t[i].0;
    }
    SplitJoin(lines, '\n');
    forall i, j | 0 <= i < j < |lines| ensures lines[i] != lines[j] {
      assert CommandNames(t)[i] != CommandNames(t)[j];
      LinesInjective(t[i].0, t[j].0);
    }
  }
}

=== FILE: editions.dfy ===
/** Where the two editions agree and where they part: the command tables,
    command parsing, settings fallback and button data. */
module Editions {
  import opened Strings
  import opened Effects
  import opened Workflow
  import opened Commands
  import opened Auth
  import W = Worker
  import M = Manager

  // ---------------------------------------------------------------------
  // The tables

  /** The image a command name stands for, in both tables: the name
      itself, except for four products whose image is spelled out. */
  function CanonicalImage(name: string): string {
    if name == "tor" then "tor-browser"
    else if name == "chrome" then "google-chrome"
    else if name == "edge" then "microsoft-edge"
    else if name == "ungoogled_chromium" then "ungoogled-chromium"
    else name
  }

  lemma WorkerImagesCanonical()
    ensures forall i :: 0 <= i < |WorkerTable| ==> WorkerTable[i].1 == CanonicalImage(WorkerTable[i].0)
  {
  }

  lemma ManagerImagesCanonical()
    ensures forall j :: 0 <= j < |ManagerTable| ==> ManagerTable[j].1 == CanonicalImage(ManagerTable[j].0)
  {
  }

  /** A name both tables list launches the same image in both. */
  lemma SharedCommandsAgree()
    ensures forall i, j :: 0 <= i < |WorkerTable| && 0 <= j < |ManagerTable| && WorkerTable[i].0 == ManagerTable[j].0 ==>
      WorkerTable[i].1 == ManagerTable[j].1
  {
    WorkerImagesCanonical();
    ManagerImagesCanonical();
  }

  /** Where each polling-bot command sits in the worker's table; `latest`
      (position 9) has no place there. */
  const PlaceInWorker: seq<int> := [4, 11, 3, 6, 9, 8, 5, 7, 0, -1, 12, 10, 13]

  /** The tables differ in three names: the polling bot alone has
      `latest`; the worker alone has `tor` and `waterfox`. Every other
      polling-bot command is a worker command. */
  lemma TablesDiffer()
    ensures ManagerTable[9].0 == "latest" && forall i :: 0 <= i < |WorkerTable| ==> WorkerTable[i].0 != "latest"
    ensures WorkerTable[1].0 == "tor" && forall j :: 0 <= j < |ManagerTable| ==> ManagerTable[j].0 != "tor"
    ensures WorkerTable[2].0 == "waterfox" && forall j :: 0 <= j < |ManagerTable| ==> ManagerTable[j].0 != "waterfox"
    ensures forall j :: 0 <= j < |ManagerTable| && j != 9 ==>
      0 <= PlaceInWorker[j] < |WorkerTable| && WorkerTable[PlaceInWorker[j]].0 == ManagerTable[j].0
  {
    LatestOnlyInManager();
    TorAndWaterfoxOnlyInWorker();
    PlacesAreRight();
  }

  lemma LatestOnlyInManager()
    ensures ManagerTable[9].0 == "latest" && forall i :: 0 <= i < |WorkerTable| ==> WorkerTable[i].0 != "latest"
  {
    assert forall i :: 0 <= i < |WorkerTable| ==> WorkerTable[i].0[0] != 'l';
  }

  lemma TorAndWaterfoxOnlyInWorker()
    ensures WorkerTable[1].0 == "tor" && forall j :: 0 <= j < |ManagerTable| ==> ManagerTable[j].0 != "tor"
    ensures WorkerTable[2].0 == "waterfox" && forall j :: 0 <= j < |ManagerTable| ==> ManagerTable[j].0 != "waterfox"
  {
    assert forall j :: 0 <= j < |ManagerTable| ==> ManagerTable[j].0[0] != 't' && ManagerTable[j].0[0] != 'w';
  }

  lemma PlacesAreRight()
    ensures forall j :: 0 <= j < |ManagerTable| && j != 9 ==>
      0 <= PlaceInWorker[j] < |WorkerTable| && WorkerTable[PlaceInWorker[j]].0 == ManagerTable[j].0
  {
  }

  // ---------------------------------------------------------------------
  // Commands

  /** A bare `/name` that both tables list, from a sender both editions
      admit: both acknowledge and dispatch the same image. */
  lemma PlainSharedCommandAgrees(wm: W.Message, env: W.Env, pm: M.Message, c: M.Config, wf: HttpOutcome, i: int, j: int)
    requires 0 <= i < |WorkerTable| && 0 <= j < |ManagerTable| && WorkerTable[i].0 == ManagerTable[j].0
    requires WorkerIsAuthorized(wm.fromId, env.allowedUserIds) && ManagerIsAuthorized(pm.fromId, c.allowedUserIds)
    requires wm.text == Some("/" + WorkerTable[i].0) && pm.text == wm.text
    ensures W.MessageEffects(wm, env, wf) == W.BrowserEffects(IntToDecimal(wm.chatId), ManagerTable[j].1, env, wf)
    ensures M.StartBrowser(pm, c, wf) == Plan(M.LaunchEffects(pm, ManagerTable[j].1, c, wf), false)
  {
    var name := WorkerTable[i].0;
    WorkerTableWellFormed();
    ManagerTableWellFormed();
    SharedCommandsAgree();
    PlainNameHasNoSeparators(name);
    W.MentionStripping(name, "");
    assert "/" + name + "" == "/" + name;
    W.MessageLaunches(WorkerTable, wm, env, wf, i);
    M.PlainCommandLaunches(ManagerTable, pm, c, wf, j);
  }

  /** A listed name followed by a bot mention or an argument: the worker
      strips the suffix and launches; the polling bot keeps it in the key
      and answers that the command is invalid. */
  lemma SuffixSplitsEditions(wm: W.Message, env: W.Env, pm: M.Message, c: M.Config, wf: HttpOutcome,
                             i: int, j: int, suffix: string)
    requires 0 <= i < |WorkerTable| && 0 <= j < |ManagerTable| && WorkerTable[i].0 == ManagerTable[j].0
    requires WorkerIsAuthorized(wm.fromId, env.allowedUserIds) && ManagerIsAuthorized(pm.fromId, c.allowedUserIds)
    requires suffix != [] && (suffix[0] == '@' || suffix[0] == ' ') && '/' !in suffix
    requires wm.text == Some("/" + WorkerTable[i].0 + suffix) && pm.text == wm.text
    ensures W.MessageEffects(wm, env, wf) == W.BrowserEffects(IntToDecimal(wm.chatId), WorkerTable[i].1, env, wf)
    ensures M.StartBrowser(pm, c, wf) == Plan([M.ReplyTo(pm, M.InvalidCommandText)], false)
  {
    var name := WorkerTable[i].0;
    WorkerTableWellFormed();
    ManagerTableWellFormed();
    PlainNameHasNoSeparators(name);
    W.MentionStripping(name, suffix);
    W.MessageLaunches(WorkerTable, wm, env, wf, i);
    M.SuffixedCommandInvalid(ManagerTable, pm, c, wf, j, suffix);
  }

  /** `/chrome@mybot` launches Chrome in the worker and is invalid in the
      polling bot. */
  lemma MentionExample(wm: W.Message, env: W.Env, pm: M.Message, c: M.Config, wf: HttpOutcome)
    requires WorkerIsAuthorized(wm.fromId, env.allowedUserIds) && ManagerIsAuthorized(pm.fromId, c.allowedUserIds)
    requires wm.text == Some("/chrome@mybot") && pm.text == wm.text
    ensures W.MessageEffects(wm, env, wf) == W.BrowserEffects(IntToDecimal(wm.chatId), "google-chrome", env, wf)
    ensures M.StartBrowser(pm, c, wf) == Plan([M.ReplyTo(pm, M.InvalidCommandText)], false)
  {
    ChromeEntries();
    MentionText();
    SuffixSplitsEditions(wm, env, pm, c, wf, 4, 0, "@mybot");
  }

  lemma ChromeEntries()
    ensures WorkerTable[4] == ("chrome", "google-chrome") && ManagerTable[0].0 == "chrome"
  {
  }

  lemma MentionText()
    ensures "/chrome@mybot" == "/" + "chrome" + "@mybot"
    ensures '/' !in "@mybot" && "@mybot"[0] == '@'
  {
  }

  /** A bare `/name` that only the polling bot lists, and that is not one
      of the worker's named flows: the polling bot launches its image; the
      worker stays silent. */
  lemma PollingOnlyCommand(wm: W.Message, env: W.Env, pm: M.Message, c: M.Config, wf: HttpOutcome, j: int)
    requires 0 <= j < |ManagerTable|
    requires forall i :: 0 <= i < |WorkerTable| ==> WorkerTable[i].0 != ManagerTable[j].0
    requires ManagerTable[j].0 !in Reserved
    requires WorkerIsAuthorized(wm.fromId, env.allowedUserIds) && ManagerIsAuthorized(pm.fromId, c.allowedUserIds)
    requires wm.text == Some("/" + ManagerTable[j].0) && pm.text == wm.text
    ensures W.MessageEffects(wm, env, wf) == []
    ensures M.StartBrowser(pm, c, wf) == Plan(M.LaunchEffects(pm, ManagerTable[j].1, c, wf), false)
  {
    var name := ManagerTable[j].0;
    WorkerTableWellFormed();
    ManagerTableWellFormed();
    PlainNameHasNoSeparators(name);
    M.PlainCommandLaunches(ManagerTable, pm, c, wf, j);
    W.MentionStripping(name, "");
    assert "/" + name + "" == "/" + name;
    W.MessageUnknownIsSilent(WorkerTable, wm, env, wf);
  }

  /** `/latest` launches the `latest` image in the polling bot; the worker
      does not know it and stays silent. */
  lemma LatestSplitsEditions(wm: W.Message, env: W.Env, pm: M.Message, c: M.Config, wf: HttpOutcome)
    requires WorkerIsAuthorized(wm.fromId, env.allowedUserIds) && ManagerIsAuthorized(pm.fromId, c.allowedUserIds)
    requires wm.text == Some("/latest") && pm.text == wm.text
    ensures W.MessageEffects(wm, env, wf) == []
    ensures M.StartBrowser(pm, c, wf) == Plan(M.LaunchEffects(pm, "latest", c, wf), false)
  {
    LatestOnlyInManager();
    LatestEntry();
    PollingOnlyCommand(wm, env, pm, c, wf, 9);
  }

  lemma LatestEntry()
    ensures ManagerTable[9] == ("latest", "latest")
    ensures "latest" !in Reserved
    ensures "/latest" == "/" + "latest"
  {
  }

  // ---------------------------------------------------------------------
  // Settings and buttons

  /** The two fallbacks part exactly on a setting that is present but
      empty (and a non-empty default): the worker takes the default, the
      polling bot keeps "". */
  lemma SettingFallbacksDiffer(o: Option<string>, default: string)
    ensures W.OrElse(o, default) != M.Getenv(o, default) <==> o == Some("") && default != ""
    ensures o == Some("") ==> W.OrElse(o, default) == default && M.Getenv(o, default) == ""
  {
  }

  /** A repository setting that is present but empty: the worker falls
      back to the default repository, the polling bot uses "". */
  lemma EmptySettingSplitsEditions(env: W.Env, c: M.Config)
    requires env.githubRepo == Some("") && c.githubRepo == Some("")
    ensures W.Repo(env) == DefaultRepo
    ensures M.Repo(c) == ""
  {
  }

  /** Button data that is not a run id: the worker never cancels for it
      (it shows a menu or ignores the press), while the polling bot sends
      that very data as the run id of a cancel request. */
  lemma ButtonDataSplitsEditions(wq: W.CallbackQuery, env: W.Env, pq: M.Query, c: M.Config, wf: HttpOutcome)
    requires WorkerIsAuthorized(wq.fromId, env.allowedUserIds) && ManagerIsAuthorized(pq.fromId, c.allowedUserIds)
    requires wq.data.Some? && !IsDigitString(wq.data.value) && pq.data == wq.data
    ensures WorkflowCount(W.CallbackEffects(wq, env, wf)) == 0
    ensures M.ButtonPress(pq, c, wf).effects[1] == CancelRun(M.Repo(c), wq.data.value)
  {
    W.CallbackFlow(wq, env, wf);
    M.ButtonFlow(pq, c, wf);
  }

  /** Example: the start menu's "list_commands" button. */
  lemma ListCommandsButtonExample(wq: W.CallbackQuery, env: W.Env, pq: M.Query, c: M.Config, wf: HttpOutcome)
    requires WorkerIsAuthorized(wq.fromId, env.allowedUserIds) && ManagerIsAuthorized(pq.fromId, c.allowedUserIds)
    requires wq.data == Some(W.ListCommandsData) && pq.data == wq.data
    ensures WorkflowCount(W.CallbackEffects(wq, env, wf)) == 0
    ensures W.CallbackEffects(wq, env, wf) == [W.Answer(wq, NoAnswerOptions), W.MenuEdit(wq, W.ShowCommandList)]
    ensures M.ButtonPress(pq, c, wf).effects[1] == CancelRun(M.Repo(c), "list_commands")
  {
    W.CallbackFlow(wq, env, wf);
    assert !IsDigit(W.ListCommandsData[0]);
    ButtonDataSplitsEditions(wq, env, pq, c, wf);
  }
}

=== FILE: effects.dfy ===
/** The vocabulary shared by both bot editions: JSON values as the
    messaging payloads carry them, the outbound calls a handler makes,
    the outcome of a call to the workflow provider, and the execution of
    a planned sequence of calls when a messaging call throws. */
module Effects {

  datatype Option<T> = None | Some(value: T)

  /** The JSON values the handlers put into payloads. */
  datatype Json =
    | JNull
    | JBool(b: bool)
    | JNum(n: int)
    | JStr(s: string)
    | JArr(items: seq<Json>)
    | JObj(fields: seq<(string, Json)>)

  /** JavaScript truthiness of a value (`if (options.x)`); objects and
      arrays are always truthy. */
  predicate Truthy(j: Json) {
    match j
    case JNull => false
    case JBool(b) => b
    case JNum(n) => n != 0
    case JStr(s) => s != ""
    case JArr(_) => true
    case JObj(_) => true
  }

  type Fields = seq<(string, Json)>

  function Keys(fields: Fields): (ks: seq<string>)
    ensures |ks| == |fields|
    ensures forall i :: 0 <= i < |fields| ==> ks[i] == fields[i].0
  {
    if |fields| == 0 then [] else [fields[0].0] + Keys(fields[1..])
  }

  /** The value of a key in a JSON object, as a reader of the serialised
      object sees it: the first field with that name. */
  function Get(fields: Fields, key: string): (v: Option<Json>)
    ensures v.Some? <==> key in Keys(fields)
    ensures v.Some? ==> (key, v.value) in fields
  {
    if |fields| == 0 then None
    else if fields[0].0 == key then Some(fields[0].1)
    else Get(fields[1..], key)
  }

  predicate NoDuplicateKeys(fields: Fields) {
    forall i, j :: 0 <= i < j < |fields| ==> fields[i].0 != fields[j].0
  }

  /** In an object without repeated keys, a key reads back exactly the
      value of the one field that carries it. */
  lemma {:induction false} GetUnique(fields: Fields, key: string, v: Json)
    requires NoDuplicateKeys(fields)
    ensures Get(fields, key) == Some(v) <==> (key, v) in fields
    decreases |fields|
  {
    if |fields| > 0 {
      if fields[0].0 == key {
        assert forall j :: 1 <= j < |fields| ==> fields[j].0 != fields[0].0;
      } else {
        assert NoDuplicateKeys(fields[1..]) by {
          forall i, j | 0 <= i < j < |fields[1..]|
            ensures fields[1..][i].0 != fields[1..][j].0
          {
            assert fields[1..][i] == fields[i + 1] && fields[1..][j] == fields[j + 1];
          }
        }
        GetUnique(fields[1..], key, v);
      }
    }
  }

  /** Reading a key after one more field was appended at the end. */
  lemma {:induction false} GetAppended(fields: Fields, key: string, v: Json, k: string)
    ensures Get(fields + [(key, v)], k)
         == if k in Keys(fields) then Get(fields, k) else if k == key then Some(v) else None
    decreases |fields|
  {
    if |fields| > 0 {
      assert (fields + [(key, v)])[1..] == fields[1..] + [(key, v)];
      GetAppended(fields[1..], key, v, k);
    }
  }

  /** The optional arguments of each chat-provider call, as the handlers
      pass them; a missing one is None. */
  datatype SendOptions = SendOptions(parseMode: Option<Json>, replyMarkup: Option<Json>, disablePreview: Option<Json>)
  datatype EditOptions = EditOptions(parseMode: Option<Json>, replyMarkup: Option<Json>)
  datatype AnswerOptions = AnswerOptions(text: Option<Json>, showAlert: Option<Json>)

  /** The `options = {}` default of each call. */
  const NoSendOptions := SendOptions(None, None, None)
  const NoEditOptions := EditOptions(None, None)
  const NoAnswerOptions := AnswerOptions(None, None)

  /** The parse mode both editions ask for on formatted texts. */
  const Markdown := JStr("Markdown")

  /** The calls a handler makes to the chat provider and to the workflow
      provider, with their arguments. Messaging calls carry the chat, text
      and options they are given (their JSON payload is shaped from these);
      workflow calls carry the repository, the workflow file and the
      dispatch body, or the run to cancel. */
  datatype Effect =
    | SendMessage(chatId: Json, text: string, sendOpts: SendOptions)
    | EditMessage(chatId: Json, messageId: Json, text: string, editOpts: EditOptions)
    | AnswerCallback(callbackId: Json, answerOpts: AnswerOptions)
    | TriggerWorkflow(repo: string, workflow: string, body: Json)
    | CancelRun(repo: string, runId: string)
  {
    predicate IsMessaging() {
      SendMessage? || EditMessage? || AnswerCallback?
    }

    predicate IsWorkflowCall() {
      TriggerWorkflow? || CancelRun?
    }
  }

  function MessagingCount(trace: seq<Effect>): nat
  {
    if |trace| == 0 then 0
    else (if trace[0].IsMessaging() then 1 else 0) + MessagingCount(trace[1..])
  }

  function WorkflowCount(trace: seq<Effect>): (n: nat)
    ensures n == 0 <==> forall i :: 0 <= i < |trace| ==> !trace[i].IsWorkflowCall()
  {
    if |trace| == 0 then 0
    else (if trace[0].IsWorkflowCall() then 1 else 0) + WorkflowCount(trace[1..])
  }

  /** A prefix of a trace makes no more workflow calls than the trace. */
  lemma {:induction false} WorkflowCountPrefix(a: seq<Effect>, b: seq<Effect>)
    requires a <= b
    ensures WorkflowCount(a) <= WorkflowCount(b)
    decreases |a|
  {
    if |a| > 0 {
      assert a[0] == b[0];
      WorkflowCountPrefix(a[1..], b[1..]);
    }
  }

  /** Both counts add up over a concatenation of traces. */
  lemma {:induction false} CountsConcat(a: seq<Effect>, b: seq<Effect>)
    ensures MessagingCount(a + b) == MessagingCount(a) + MessagingCount(b)
    ensures WorkflowCount(a + b) == WorkflowCount(a) + WorkflowCount(b)
    decreases |a|
  {
    if |a| > 0 {
      assert (a + b)[1..] == a[1..] + b;
      CountsConcat(a[1..], b);
    } else {
      assert a + b == b;
    }
  }

  /** What the workflow provider answered: an HTTP response with its
      status and body text, or no response at all (a network error with
      its description). */
  datatype HttpOutcome = Response(status: int, body: string) | NetErr(msg: string)

  /** Which messaging call of an invocation throws, counting from 0. In
      the worker, `fetch` rejects or the reply body does not parse as JSON;
      in the polling edition, the client library raises on a network error
      or on an error reply from the chat provider. Neither edition catches
      that, so the invocation stops there. */
  datatype Fault = NoFault | ThrowsAt(k: nat)

  /** What a handler intends: the calls in order, and whether it raises
      after the last of them. */
  datatype Plan = Plan(effects: seq<Effect>, raises: bool)

  /** What happened: the calls made, and whether the invocation ended in
      an uncaught exception. */
  datatype Execution = Execution(trace: seq<Effect>, aborted: bool)

  /** Issues the planned calls in order until the faulty messaging call,
      which is issued and throws. */
  function Run(plan: seq<Effect>, fault: Fault): (x: Execution)
    ensures x.trace <= plan
    ensures x.aborted <==> fault.ThrowsAt? && fault.k < MessagingCount(plan)
    ensures !x.aborted ==> x.trace == plan
    ensures x.aborted ==> MessagingCount(x.trace) == fault.k + 1 && x.trace[|x.trace| - 1].IsMessaging()
    decreases |plan|
  {
    if |plan| == 0 then Execution([], false)
    else if plan[0].IsMessaging() && fault == ThrowsAt(0) then
      assert [plan[0]][1..] == [];
      Execution([plan[0]], true)
    else
      var next := if plan[0].IsMessaging() && fault.ThrowsAt? then ThrowsAt(fault.k - 1) else fault;
      var rest := Run(plan[1..], next);
      var trace := [plan[0]] + rest.trace;
      assert trace[1..] == rest.trace;
      assert rest.aborted ==> trace[|trace| - 1] == rest.trace[|rest.trace| - 1];
      Execution(trace, rest.aborted)
  }

  /** Executes a plan: a raise at its end ends the invocation too. */
  function Perform(plan: Plan, fault: Fault): (x: Execution)
    ensures x.trace <= plan.effects
    ensures x.trace == Run(plan.effects, fault).trace
    ensures fault == NoFault ==> x == Execution(plan.effects, plan.raises)
    ensures x.aborted <==> plan.raises || (fault.ThrowsAt? && fault.k < MessagingCount(plan.effects))
    ensures WorkflowCount(x.trace) <= WorkflowCount(plan.effects)
  {
    var x := Run(plan.effects, fault);
    WorkflowCountPrefix(x.trace, plan.effects);
    Execution(x.trace, x.aborted || plan.raises)
  }
}

=== FILE: manager.dfy ===
/** The polling edition: a long-running bot whose handlers are called one
    update at a time. Each handler checks the sender against the
    allow-list (untrimmed tokens), then answers in the chat and, for a
    listed command or a button press, calls the workflow provider once.
    An exception a handler raises ends that handler; the bot goes on. */
module Manager {
  import opened Strings
  import opened Effects
  import opened Workflow
  import opened Commands
  import opened Auth

  /** The settings the polling bot reads once, at start-up. The bot token
      is required: without it the bot does not start. */
  datatype Config = Config(
    botToken: string,
    allowedUserIds: Option<string>,
    githubRepo: Option<string>,
    workflowName: Option<string>)

  /** A chat message: the chat, the sender and the text, if any. */
  datatype Message = Message(chatId: int, fromId: int, text: Option<string>)

  /** A button press: its id, the presser, the message it is on, and the
      data the button carries, if any. */
  datatype Query = Query(id: string, fromId: int, chatId: int, messageId: int, data: Option<string>)

  /** Python's `os.getenv(name, default)`: the default stands in only for
      a missing variable; a variable set to "" stays "". */
  function Getenv(o: Option<string>, default: string): string {
    if o.Some? then o.value else default
  }

  function Repo(c: Config): string {
    Getenv(c.githubRepo, DefaultRepo)
  }

  function WorkflowFile(c: Config): string {
    Getenv(c.workflowName, DefaultWorkflow)
  }

  const InvalidCommandText := "❌ Invalid command!"

  /** The closing lines of the `/actionslist` reply. */
  const ListTail := "\n\nTo start an instance, simply type the command (e.g., `/chrome`)\nTo stop a running instance, click the *Cancel* button on the deployment message."

  function ActionsListText(commandList: string): string {
    ListHead + commandList + ListTail
  }

  /** A plain reply in the message's chat. */
  function ReplyTo(m: Message, text: string): Effect {
    SendMessage(JNum(m.chatId), text, NoSendOptions)
  }

  // ---------------------------------------------------------------------
  // Browser commands

  /** The command key: the text between the first `/` and the next one (or
      the end). A text with no `/` has no second piece, and indexing it
      raises. */
  function CommandKey(text: string): (r: Option<string>)
    ensures r.None? <==> '/' !in text
    ensures r.Some? ==> exists k :: IsKeyAt(text, k, r.value)
  {
    var parts := Split(text, '/');
    var h := parts[0];
    SplitHead(text, '/');
    if '/' in text then
      assert h != text;
      var rest := text[|h| + 1..];
      assert text == h + ['/'] + rest;
      SplitAfterPiece(h, '/', rest);
      SplitHead(rest, '/');
      assert IsKeyAt(text, |h|, parts[1]);
      Some(parts[1])
    else
      SplitWithoutSeparator(text, '/');
      None
  }

  /** `key` follows the first `/` of `text`, which sits at `k`, and runs to
      the next `/` or the end. */
  predicate IsKeyAt(text: string, k: int, key: string) {
    && 0 <= k < |text| && text[k] == '/' && '/' !in text[..k]
    && key <= text[k + 1..] && '/' !in key
    && (k + 1 + |key| == |text| || text[k + 1 + |key|] == '/')
  }

  /** The key of `pre/key/...` or `pre/key` is `key`, whatever `pre` is. */
  lemma CommandKeyReadsSecondPiece(pre: string, key: string, post: string)
    requires '/' !in pre && '/' !in key
    requires post == [] || post[0] == '/'
    ensures CommandKey(pre + "/" + key + post) == Some(key)
  {
    var text := pre + "/" + key + post;
    assert text == pre + ['/'] + (key + post);
    SplitAfterPiece(pre, '/', key + post);
    HeadOfSplit(key, post, '/');
  }

  /** A key exists exactly when the text has a `/`, and it never holds one. */
  lemma CommandKeyNeedsSlash(text: string)
    ensures CommandKey(text).None? <==> '/' !in text
    ensures CommandKey(text).Some? ==> '/' !in CommandKey(text).value
  {
    if '/' !in text {
      SplitWithoutSeparator(text, '/');
    } else {
      JoinSplit(text, '/');
      assert Split(text, '/')[0] != text;
    }
  }

  /** Acknowledge, dispatch on `master`, report: the launch of a listed
      command. */
  function LaunchEffects(m: Message, image: string, c: Config, wf: HttpOutcome): (r: seq<Effect>)
    ensures |r| == 3 && MessagingCount(r) == 2 && WorkflowCount(r) == 1
    ensures r[1].TriggerWorkflow?
  {
    var r := [ ReplyTo(m, StartingText(image)),
               TriggerWorkflow(Repo(c), WorkflowFile(c), ManagerDispatchBody(IntToDecimal(m.chatId), image, c.botToken)),
               ReplyTo(m, ManagerTriggerResult(wf).message) ];
    CountsConcat([r[0]], [r[1], r[2]]);
    CountsConcat([r[1]], [r[2]]);
    r
  }

  /** The browser-command handler over a command table. */
  function StartBrowserIn(t: Table, m: Message, c: Config, wf: HttpOutcome): (p: Plan)
    ensures WorkflowCount(p.effects) <= 1
  {
    if !ManagerIsAuthorized(m.fromId, c.allowedUserIds) then Plan([ReplyTo(m, NotAuthorizedText)], false)
    else if m.text.None? then Plan([], true)
    else match CommandKey(m.text.value)
      case None => Plan([], true)
      case Some(key) =>
        match TruthyImage(t, key)
        case None => Plan([ReplyTo(m, InvalidCommandText)], false)
        case Some(image) => Plan(LaunchEffects(m, image, c, wf), false)
  }

  /** The browser-command handler over the polling bot's table: it raises
      only before any call, and dispatches exactly for a listed key of an
      authorized sender. */
  function StartBrowser(m: Message, c: Config, wf: HttpOutcome): (p: Plan)
    ensures p.raises ==> p.effects == []
    ensures WorkflowCount(p.effects) == 1 <==>
      ManagerIsAuthorized(m.fromId, c.allowedUserIds) && m.text.Some? && CommandKey(m.text.value).Some?
      && exists i :: 0 <= i < |ManagerTable| && ManagerTable[i].0 == CommandKey(m.text.value).value
  {
    ManagerTableWellFormed();
    StartBrowserFlow(ManagerTable, m, c, wf);
    StartBrowserIn(ManagerTable, m, c, wf)
  }

  /** The browser-command handler as a whole: an unauthorized sender gets
      the denial alone; a text without a key raises before any call; a key
      the table does not list gets one "invalid" reply; a listed key is
      acknowledged, dispatched with its own image, and reported. Exactly
      the listed keys of authorized senders reach the workflow provider. */
  lemma StartBrowserFlow(t: Table, m: Message, c: Config, wf: HttpOutcome)
    requires WellFormed(t)
    ensures var p := StartBrowserIn(t, m, c, wf);
      && (!ManagerIsAuthorized(m.fromId, c.allowedUserIds) ==> p == Plan([ReplyTo(m, NotAuthorizedText)], false))
      && (ManagerIsAuthorized(m.fromId, c.allowedUserIds) && (m.text.None? || '/' !in m.text.value) ==> p == Plan([], true))
      && (p.raises ==> p.effects == [])
      && (ManagerIsAuthorized(m.fromId, c.allowedUserIds) && m.text.Some? && CommandKey(m.text.value).Some?
          && (forall i :: 0 <= i < |t| ==> t[i].0 != CommandKey(m.text.value).value)
          ==> p == Plan([ReplyTo(m, InvalidCommandText)], false))
      && (forall i :: 0 <= i < |t| && ManagerIsAuthorized(m.fromId, c.allowedUserIds) && m.text.Some?
            && CommandKey(m.text.value) == Some(t[i].0)
            ==> p == Plan(LaunchEffects(m, t[i].1, c, wf), false))
      && (WorkflowCount(p.effects) == 1 <==>
            ManagerIsAuthorized(m.fromId, c.allowedUserIds) && m.text.Some? && CommandKey(m.text.value).Some?
            && exists i :: 0 <= i < |t| && t[i].0 == CommandKey(m.text.value).value)
  {
    if m.text.Some? {
      CommandKeyNeedsSlash(m.text.value);
      if CommandKey(m.text.value).Some? {
        TruthyIsMembership(t, CommandKey(m.text.value).value);
      }
    }
  }

  /** A launch in detail: the acknowledgment names the image, the dispatch
      carries the chat as a string, the image and the bot token, and the
      report is the trigger's result. */
  lemma LaunchInOrder(m: Message, image: string, c: Config, wf: HttpOutcome)
    ensures var r := LaunchEffects(m, image, c, wf);
      && r[0] == SendMessage(JNum(m.chatId), StartingText(image), NoSendOptions)
      && r[1] == TriggerWorkflow(Repo(c), WorkflowFile(c), ManagerDispatchBody(IntToDecimal(m.chatId), image, c.botToken))
      && r[2] == SendMessage(JNum(m.chatId), ManagerTriggerResult(wf).message, NoSendOptions)
      && r[1].body.fields[0] == ("ref", JStr("master"))
  {
  }

  /** A bare `/name` of a listed command launches that command's image. */
  lemma PlainCommandLaunches(t: Table, m: Message, c: Config, wf: HttpOutcome, i: int)
    requires WellFormed(t)
    requires ManagerIsAuthorized(m.fromId, c.allowedUserIds)
    requires 0 <= i < |t| && m.text == Some("/" + t[i].0)
    ensures StartBrowserIn(t, m, c, wf) == Plan(LaunchEffects(m, t[i].1, c, wf), false)
  {
    PlainNameHasNoSeparators(t[i].0);
    CommandKeyReadsSecondPiece("", t[i].0, "");
    assert "" + "/" + t[i].0 + "" == "/" + t[i].0;
    StartBrowserFlow(t, m, c, wf);
  }

  /** Anything after the name but a `/` (a bot mention, an argument) stays
      in the key, and no listed name matches it: the sender is told the
      command is invalid and nothing is dispatched. */
  lemma SuffixedCommandInvalid(t: Table, m: Message, c: Config, wf: HttpOutcome, i: int, suffix: string)
    requires WellFormed(t)
    requires ManagerIsAuthorized(m.fromId, c.allowedUserIds)
    requires 0 <= i < |t| && m.text == Some("/" + t[i].0 + suffix)
    requires '/' !in suffix && suffix != [] && !('a' <= suffix[0] <= 'z' || suffix[0] == '_')
    ensures StartBrowserIn(t, m, c, wf) == Plan([ReplyTo(m, InvalidCommandText)], false)
  {
    var key := t[i].0 + suffix;
    PlainNameHasNoSeparators(t[i].0);
    CommandKeyReadsSecondPiece("", key, "");
    assert "" + "/" + key + "" == "/" + t[i].0 + suffix;
    var ch := key[|t[i].0|];
    assert ch == suffix[0] && !('a' <= ch <= 'z' || ch == '_');
    assert forall j :: 0 <= j < |t| ==> t[j].0 != key;
    StartBrowserFlow(t, m, c, wf);
  }

  // ---------------------------------------------------------------------
  // Buttons

  /** The run id a press cancels: the button's data, or Python's rendering
      of a missing value. */
  function RunIdText(data: Option<string>): string {
    if data.Some? then data.value else "None"
  }

  /** The button handler: every authorized press is answered, cancels the
      run its data names, whatever that data is, and edits the message to
      the cancel result. */
  function ButtonPress(q: Query, c: Config, wf: HttpOutcome): (p: Plan)
    ensures !p.raises
  {
    if !ManagerIsAuthorized(q.fromId, c.allowedUserIds) then
      Plan([AnswerCallback(JStr(q.id), DenialAlert)], false)
    else
      var runId := RunIdText(q.data);
      Plan([ AnswerCallback(JStr(q.id), NoAnswerOptions),
             CancelRun(Repo(c), runId),
             EditMessage(JNum(q.chatId), JNum(q.messageId), ManagerCancelResult(runId, wf).message, NoEditOptions) ], false)
  }

  /** An unauthorized presser gets one alert and nothing else; an
      authorized press makes exactly one cancel request, for the run the
      data names, and the edit reports that run. */
  lemma ButtonFlow(q: Query, c: Config, wf: HttpOutcome)
    ensures var r := ButtonPress(q, c, wf).effects;
      && (!ManagerIsAuthorized(q.fromId, c.allowedUserIds) ==> r == [AnswerCallback(JStr(q.id), DenialAlert)])
      && (WorkflowCount(r) == 1 <==> ManagerIsAuthorized(q.fromId, c.allowedUserIds))
      && (WorkflowCount(r) <= 1)
      && (ManagerIsAuthorized(q.fromId, c.allowedUserIds) ==>
            |r| == 3 && r[0] == AnswerCallback(JStr(q.id), NoAnswerOptions)
            && (q.data.Some? ==> r[1] == CancelRun(Repo(c), q.data.value))
            && (q.data.None? ==> r[1] == CancelRun(Repo(c), "None"))
            && r[2] == EditMessage(JNum(q.chatId), JNum(q.messageId), ManagerCancelResult(RunIdText(q.data), wf).message, NoEditOptions)
            && (wf.Response? && !RaisesForStatus(wf.status) ==> r[2].text == StoppingMessage(RunIdText(q.data))))
  {
    var r := ButtonPress(q, c, wf).effects;
    if ManagerIsAuthorized(q.fromId, c.allowedUserIds) {
      CountsConcat([r[0]], [r[1], r[2]]);
      CountsConcat([r[1]], [r[2]]);
    }
  }

  // ---------------------------------------------------------------------
  // The command list

  function ActionsListIn(t: Table, m: Message, c: Config): (p: Plan)
    ensures !p.raises && |p.effects| == 1 && WorkflowCount(p.effects) == 0
  {
    if !ManagerIsAuthorized(m.fromId, c.allowedUserIds) then Plan([ReplyTo(m, NotAuthorizedText)], false)
    else Plan([SendMessage(JNum(m.chatId), ActionsListText(ManagerCommandList(t)), SendOptions(Some(Markdown), None, None))], false)
  }

  function ActionsList(m: Message, c: Config): Plan {
    ActionsListIn(ManagerTable, m, c)
  }

  /** An authorized sender gets one Markdown message listing every command
      of the table, one `/name` line each, in table order; anyone else gets
      the denial. */
  lemma ActionsListFlow(t: Table, m: Message, c: Config)
    requires WellFormed(t) && |t| >= 1
    ensures var r := ActionsListIn(t, m, c).effects;
      && (!ManagerIsAuthorized(m.fromId, c.allowedUserIds) ==> r == [ReplyTo(m, NotAuthorizedText)])
      && (ManagerIsAuthorized(m.fromId, c.allowedUserIds) ==>
            r == [SendMessage(JNum(m.chatId), ListHead + ManagerCommandList(t) + ListTail, SendOptions(Some(Markdown), None, None))]
            && var lines := Split(ManagerCommandList(t), '\n');
               |lines| == |t| && forall i :: 0 <= i < |t| ==> lines[i] == "/" + t[i].0)
  {
    ManagerCommandListLines(t);
  }

  // ---------------------------------------------------------------------
  // Dispatch

  /** The handler an update reaches: the browser-command handler, the
      command-list handler, or the button handler. */
  datatype Invocation = BrowserCommand(m: Message) | ActionsListCommand(m: Message) | ButtonPressed(q: Query)

  function PlanOf(inv: Invocation, c: Config, wf: HttpOutcome): Plan {
    match inv
    case BrowserCommand(m) => StartBrowser(m, c, wf)
    case ActionsListCommand(m) => ActionsList(m, c)
    case ButtonPressed(q) => ButtonPress(q, c, wf)
  }

  /** One handler call: the calls made, and whether it ended in an
      exception (which the bot logs and survives). */
  function Handle(inv: Invocation, c: Config, wf: HttpOutcome, fault: Fault): (x: Execution)
    ensures x.trace <= PlanOf(inv, c, wf).effects
    ensures WorkflowCount(x.trace) <= 1
    ensures fault == NoFault ==> x == Execution(PlanOf(inv, c, wf).effects, PlanOf(inv, c, wf).raises)
  {
    PlanCallsAtMostOnce(inv, c, wf);
    Perform(PlanOf(inv, c, wf), fault)
  }

  /** No handler plans more than one call to the workflow provider. */
  lemma PlanCallsAtMostOnce(inv: Invocation, c: Config, wf: HttpOutcome)
    ensures WorkflowCount(PlanOf(inv, c, wf).effects) <= 1
  {
    if inv.ButtonPressed? {
      ButtonFlow(inv.q, c, wf);
    }
  }

  /** The sender a handler checks. */
  function Sender(inv: Invocation): int {
    match inv
    case BrowserCommand(m) => m.fromId
    case ActionsListCommand(m) => m.fromId
    case ButtonPressed(q) => q.fromId
  }

  /** An unauthorized sender never reaches the workflow provider and gets
      exactly one call, the denial. */
  lemma UnauthorizedNeverTriggers(inv: Invocation, c: Config, wf: HttpOutcome, fault: Fault)
    requires !ManagerIsAuthorized(Sender(inv), c.allowedUserIds)
    ensures var x := Handle(inv, c, wf, fault);
      && WorkflowCount(x.trace) == 0 && |x.trace| <= 1
      && (fault == NoFault ==> |x.trace| == 1 && !x.aborted)
  {
    var p := PlanOf(inv, c, wf);
    assert |p.effects| == 1 && !p.effects[0].IsWorkflowCall();
    WorkflowCountPrefix(Handle(inv, c, wf, fault).trace, p.effects);
  }
}

=== FILE: messaging.dfy ===
/** Payload shaping for the three chat-provider calls (sendMessage,
    editMessageText, answerCallbackQuery): the required keys always come
    first; each optional key is added, in a fixed order, only when its
    option is truthy, so an absent or falsy option never reaches the wire. */
module Messaging {
  import opened Effects

  /** An option the payload carries: present and truthy. */
  predicate Given(o: Option<Json>) {
    o.Some? && Truthy(o.value)
  }

  /** What a reader of the payload finds under an optional key. */
  function Carried(o: Option<Json>): Option<Json> {
    if Given(o) then o else None
  }

  /** Adds `key` with the option's value when the option is truthy, and
      leaves the payload alone otherwise; the payload must not hold `key`. */
  function With(p: Fields, key: string, o: Option<Json>): (q: Fields)
    requires forall i :: 0 <= i < |p| ==> p[i].0 != key
    ensures NoDuplicateKeys(p) ==> NoDuplicateKeys(q)
    ensures Get(q, key) == Carried(o)
    ensures p <= q
    ensures forall i :: |p| <= i < |q| ==> q[i].0 == key
  {
    if Given(o) then
      GetAppended(p, key, o.value, key);
      p + [(key, o.value)]
    else
      p
  }

  /** Adding an optional key leaves every other key as it was. */
  lemma WithKeepsOthers(p: Fields, key: string, o: Option<Json>, k: string)
    requires forall i :: 0 <= i < |p| ==> p[i].0 != key
    requires k != key
    ensures Get(With(p, key, o), k) == Get(p, k)
  {
    if Given(o) {
      GetAppended(p, key, o.value, k);
    }
  }

  /** The sendMessage payload: the chat and the text first, then at most
      the three options. */
  function SendPayload(chatId: Json, text: string, opts: SendOptions): (p: Fields)
    ensures 2 <= |p| <= 5
    ensures p[..2] == [("chat_id", chatId), ("text", JStr(text))]
  {
    var p0 := [("chat_id", chatId), ("text", JStr(text))];
    var p1 := With(p0, "parse_mode", opts.parseMode);
    var p2 := With(p1, "reply_markup", opts.replyMarkup);
    With(p2, "disable_web_page_preview", opts.disablePreview)
  }

  /** The editMessageText payload: the chat, the message and the text
      first, then at most the two options. */
  function EditPayload(chatId: Json, messageId: Json, text: string, opts: EditOptions): (p: Fields)
    ensures 3 <= |p| <= 5
    ensures p[..3] == [("chat_id", chatId), ("message_id", messageId), ("text", JStr(text))]
  {
    var p0 := [("chat_id", chatId), ("message_id", messageId), ("text", JStr(text))];
    var p1 := With(p0, "parse_mode", opts.parseMode);
    With(p1, "reply_markup", opts.replyMarkup)
  }

  /** The answerCallbackQuery payload: the query id first, then at most
      the two options. */
  function AnswerPayload(callbackId: Json, opts: AnswerOptions): (p: Fields)
    ensures 1 <= |p| <= 3
    ensures p[0] == ("callback_query_id", callbackId)
  {
    var p0 := [("callback_query_id", callbackId)];
    var p1 := With(p0, "text", opts.text);
    With(p1, "show_alert", opts.showAlert)
  }

  /** A sendMessage payload names each key once, and only the keys the
      call knows. */
  lemma SendPayloadKeys(chatId: Json, text: string, opts: SendOptions)
    ensures var p := SendPayload(chatId, text, opts);
      && NoDuplicateKeys(p)
      && forall i :: 0 <= i < |p| ==>
           p[i].0 in {"chat_id", "text", "parse_mode", "reply_markup", "disable_web_page_preview"}
  {
  }

  /** A sendMessage payload always carries the chat and the text, and
      carries each option exactly when it is truthy. */
  lemma SendPayloadValues(chatId: Json, text: string, opts: SendOptions)
    ensures var p := SendPayload(chatId, text, opts);
      && Get(p, "chat_id") == Some(chatId) && Get(p, "text") == Some(JStr(text))
      && Get(p, "parse_mode") == Carried(opts.parseMode)
      && Get(p, "reply_markup") == Carried(opts.replyMarkup)
      && Get(p, "disable_web_page_preview") == Carried(opts.disablePreview)
  {
    var p0 := [("chat_id", chatId), ("text", JStr(text))];
    var p1 := With(p0, "parse_mode", opts.parseMode);
    var p2 := With(p1, "reply_markup", opts.replyMarkup);
    WithKeepsOthers(p0, "parse_mode", opts.parseMode, "chat_id");
    WithKeepsOthers(p1, "reply_markup", opts.replyMarkup, "chat_id");
    WithKeepsOthers(p2, "disable_web_page_preview", opts.disablePreview, "chat_id");
    WithKeepsOthers(p0, "parse_mode", opts.parseMode, "text");
    WithKeepsOthers(p1, "reply_markup", opts.replyMarkup, "text");
    WithKeepsOthers(p2, "disable_web_page_preview", opts.disablePreview, "text");
    WithKeepsOthers(p1, "reply_markup", opts.replyMarkup, "parse_mode");
    WithKeepsOthers(p2, "disable_web_page_preview", opts.disablePreview, "parse_mode");
    WithKeepsOthers(p2, "disable_web_page_preview", opts.disablePreview, "reply_markup");
  }

  /** An editMessageText payload names each key once, and only the keys
      the call knows. */
  lemma EditPayloadKeys(chatId: Json, messageId: Json, text: string, opts: EditOptions)
    ensures var p := EditPayload(chatId, messageId, text, opts);
      && NoDuplicateKeys(p)
      && forall i :: 0 <= i < |p| ==> p[i].0 in {"chat_id", "message_id", "text", "parse_mode", "reply_markup"}
  {
  }

  /** An editMessageText payload always carries the chat, the message and
      the text, and carries each option exactly when it is truthy. */
  lemma EditPayloadValues(chatId: Json, messageId: Json, text: string, opts: EditOptions)
    ensures var p := EditPayload(chatId, messageId, text, opts);
      && Get(p, "chat_id") == Some(chatId) && Get(p, "message_id") == Some(messageId)
      && Get(p, "text") == Some(JStr(text))
      && Get(p, "parse_mode") == Carried(opts.parseMode)
      && Get(p, "reply_markup") == Carried(opts.replyMarkup)
  {
    EditPayloadRequired(chatId, messageId, text, opts);
    EditPayloadOptional(chatId, messageId, text, opts);
  }

  lemma EditPayloadRequired(chatId: Json, messageId: Json, text: string, opts: EditOptions)
    ensures var p := EditPayload(chatId, messageId, text, opts);
      && Get(p, "chat_id") == Some(chatId) && Get(p, "message_id") == Some(messageId)
      && Get(p, "text") == Some(JStr(text))
  {
    EditKeysDistinct();
    GetOfThree("chat_id", "message_id", "text", chatId, messageId, JStr(text));
    EditKeepsRequired(chatId, messageId, text, opts, "chat_id");
    EditKeepsRequired(chatId, messageId, text, opts, "message_id");
    EditKeepsRequired(chatId, messageId, text, opts, "text");
  }

  /** The five keys of an edit are pairwise different. */
  lemma EditKeysDistinct()
    ensures "chat_id" != "message_id" && "chat_id" != "text" && "message_id" != "text"
    ensures "chat_id" != "parse_mode" && "message_id" != "parse_mode" && "text" != "parse_mode"
    ensures "chat_id" != "reply_markup" && "message_id" != "reply_markup" && "text" != "reply_markup"
  {
    assert |"chat_id"| == 7 && |"message_id"| == 10 && |"text"| == 4 && |"reply_markup"| == 12;
    assert "message_id"[0] != "parse_mode"[0];
  }

  /** Reading each key of a three-field object with distinct keys. */
  lemma GetOfThree(a: string, b: string, c: string, x: Json, y: Json, z: Json)
    requires a != b && a != c && b != c
    ensures Get([(a, x), (b, y), (c, z)], a) == Some(x)
    ensures Get([(a, x), (b, y), (c, z)], b) == Some(y)
    ensures Get([(a, x), (b, y), (c, z)], c) == Some(z)
  {
    var f := [(a, x), (b, y), (c, z)];
    assert f[1..] == [(b, y), (c, z)];
    assert f[1..][1..] == [(c, z)];
  }

  /** The options never touch a required key of an edit. */
  lemma EditKeepsRequired(chatId: Json, messageId: Json, text: string, opts: EditOptions, k: string)
    requires k != "parse_mode" && k != "reply_markup"
    ensures Get(EditPayload(chatId, messageId, text, opts), k)
         == Get([("chat_id", chatId), ("message_id", messageId), ("text", JStr(text))], k)
  {
    var p0 := [("chat_id", chatId), ("message_id", messageId), ("text", JStr(text))];
    var p1 := With(p0, "parse_mode", opts.parseMode);
    WithKeepsOthers(p0, "parse_mode", opts.parseMode, k);
    WithKeepsOthers(p1, "reply_markup", opts.replyMarkup, k);
  }

  lemma EditPayloadOptional(chatId: Json, messageId: Json, text: string, opts: EditOptions)
    ensures var p := EditPayload(chatId, messageId, text, opts);
      && Get(p, "parse_mode") == Carried(opts.parseMode)
      && Get(p, "reply_markup") == Carried(opts.replyMarkup)
  {
    var p0 := [("chat_id", chatId), ("message_id", messageId), ("text", JStr(text))];
    var p1 := With(p0, "parse_mode", opts.parseMode);
    WithKeepsOthers(p1, "reply_markup", opts.replyMarkup, "parse_mode");
  }

  /** An answerCallbackQuery payload always carries the query id, carries
      the toast text and the alert flag exactly when they are truthy, and
      nothing else. */
  lemma AnswerPayloadShape(callbackId: Json, opts: AnswerOptions)
    ensures var p := AnswerPayload(callbackId, opts);
      && NoDuplicateKeys(p)
      && Get(p, "callback_query_id") == Some(callbackId)
      && Get(p, "text") == Carried(opts.text)
      && Get(p, "show_alert") == Carried(opts.showAlert)
      && forall i :: 0 <= i < |p| ==> p[i].0 in {"callback_query_id", "text", "show_alert"}
  {
    var p0 := [("callback_query_id", callbackId)];
    var p1 := With(p0, "text", opts.text);
    WithKeepsOthers(p0, "text", opts.text, "callback_query_id");
    WithKeepsOthers(p1, "show_alert", opts.showAlert, "callback_query_id");
    WithKeepsOthers(p1, "show_alert", opts.showAlert, "text");
  }

  /** The JSON payload a messaging call posts. */
  function Payload(e: Effect): Fields
    requires e.IsMessaging()
  {
    match e
    case SendMessage(chatId, text, opts) => SendPayload(chatId, text, opts)
    case EditMessage(chatId, messageId, text, opts) => EditPayload(chatId, messageId, text, opts)
    case AnswerCallback(callbackId, opts) => AnswerPayload(callbackId, opts)
  }

  /** With the default options each payload holds its required keys and
      nothing else. */
  lemma DefaultOptionsGiveBarePayloads(chatId: Json, messageId: Json, callbackId: Json, text: string)
    ensures SendPayload(chatId, text, NoSendOptions) == [("chat_id", chatId), ("text", JStr(text))]
    ensures EditPayload(chatId, messageId, text, NoEditOptions)
         == [("chat_id", chatId), ("message_id", messageId), ("text", JStr(text))]
    ensures AnswerPayload(callbackId, NoAnswerOptions) == [("callback_query_id", callbackId)]
  {
  }
}

=== FILE: strings.dfy ===
/** String operations the two bot editions rely on, with the semantics of
    JavaScript's and Python's built-ins for the cases the bot uses:
    splitting on a one-character separator, joining, trimming,
    decimal rendering of integers and taking a bounded prefix. */
module Strings {

  /** The characters ECMAScript's String.prototype.trim removes:
      the WhiteSpace and LineTerminator productions. */
  predicate IsJsSpace(c: char) {
    var n := c as int;
    || (9 <= n <= 13)
    || n == 0x20 || n == 0xA0 || n == 0x1680
    || (0x2000 <= n <= 0x200A)
    || n == 0x2028 || n == 0x2029 || n == 0x202F || n == 0x205F
    || n == 0x3000 || n == 0xFEFF
  }

  predicate NoJsSpace(s: string) {
    forall i :: 0 <= i < |s| ==> !IsJsSpace(s[i])
  }

  predicate StartsWith(s: string, prefix: string) {
    prefix <= s
  }

  /** `s.split(sep)` for a one-character separator; JavaScript and Python
      agree here: every occurrence cuts, and "" splits into [""]. */
  function Split(s: string, sep: char): (parts: seq<string>)
    ensures |parts| >= 1
    ensures forall i :: 0 <= i < |parts| ==> sep !in parts[i]
    decreases |s|
  {
    if |s| == 0 then [""]
    else
      var rest := Split(s[1..], sep);
      if s[0] == sep then [""] + rest
      else [[s[0]] + rest[0]] + rest[1..]
  }

  /** `parts.join(sep)` / `sep.join(parts)`. */
  function Join(parts: seq<string>, sep: char): string
  {
    if |parts| == 0 then ""
    else if |parts| == 1 then parts[0]
    else parts[0] + [sep] + Join(parts[1..], sep)
  }

  /** Joining the pieces of a split gives the original string back. */
  lemma {:induction false} JoinSplit(s: string, sep: char)
    ensures Join(Split(s, sep), sep) == s
    decreases |s|
  {
    if |s| > 0 {
      var rest := Split(s[1..], sep);
      JoinSplit(s[1..], sep);
      if s[0] == sep {
        assert Split(s, sep) == [""] + rest;
        assert ([""] + rest)[1..] == rest;
        calc {
          Join([""] + rest, sep);
          "" + [sep] + Join(rest, sep);
          [s[0]] + s[1..];
          s;
        }
      } else if |rest| == 1 {
        assert Split(s, sep) == [[s[0]] + rest[0]];
        assert [s[0]] + s[1..] == s;
      } else {
        var parts := [[s[0]] + rest[0]] + rest[1..];
        assert Split(s, sep) == parts;
        assert parts[1..] == rest[1..];
        assert Join(rest, sep) == rest[0] + [sep] + Join(rest[1..], sep);
        calc {
          Join(parts, sep);
          [s[0]] + rest[0] + [sep] + Join(rest[1..], sep);
          [s[0]] + Join(rest, sep);
          s;
        }
      }
    }
  }

  /** A string free of the separator splits into itself alone. */
  lemma {:induction false} SplitWithoutSeparator(a: string, sep: char)
    requires sep !in a
    ensures Split(a, sep) == [a]
    decreases |a|
  {
    if |a| > 0 {
      SplitWithoutSeparator(a[1..], sep);
      assert [a[0]] + a[1..] == a;
    }
  }

  /** A separator-free piece followed by the separator is split off whole. */
  lemma {:induction false} SplitAfterPiece(a: string, sep: char, t: string)
    requires sep !in a
    ensures Split(a + [sep] + t, sep) == [a] + Split(t, sep)
    decreases |a|
  {
    var s := a + [sep] + t;
    if |a| == 0 {
      assert s[1..] == t;
    } else {
      assert s[1..] == a[1..] + [sep] + t;
      SplitAfterPiece(a[1..], sep, t);
      assert [a[0]] + a[1..] == a;
    }
  }

  /** Splitting a join gives the pieces back, provided no piece holds the
      separator. */
  lemma {:induction false} SplitJoin(parts: seq<string>, sep: char)
    requires |parts| >= 1
    requires forall i :: 0 <= i < |parts| ==> sep !in parts[i]
    ensures Split(Join(parts, sep), sep) == parts
    decreases |parts|
  {
    if |parts| == 1 {
      SplitWithoutSeparator(parts[0], sep);
    } else {
      SplitJoin(parts[1..], sep);
      SplitAfterPiece(parts[0], sep, Join(parts[1..], sep));
      assert [parts[0]] + parts[1..] == parts;
    }
  }

  /** The first piece of a split is the longest separator-free prefix:
      it is a prefix, and it ends at the end of the string or at a separator. */
  lemma {:induction false} SplitHead(s: string, sep: char)
    ensures Split(s, sep)[0] <= s
    ensures |Split(s, sep)[0]| < |s| ==> s[|Split(s, sep)[0]|] == sep
    decreases |s|
  {
    if |s| > 0 && s[0] != sep {
      SplitHead(s[1..], sep);
      var h := Split(s[1..], sep)[0];
      assert Split(s, sep)[0] == [s[0]] + h;
      assert [s[0]] + s[1..] == s;
    }
  }

  /** Conversely, a separator-free prefix that ends at a separator or at the
      end of the string is the first piece. */
  lemma HeadOfSplit(a: string, t: string, sep: char)
    requires sep !in a
    requires t == [] || t[0] == sep
    ensures Split(a + t, sep)[0] == a
  {
    if t == [] {
      assert a + t == a;
      SplitWithoutSeparator(a, sep);
    } else {
      assert a + t == a + [sep] + t[1..];
      SplitAfterPiece(a, sep, t[1..]);
    }
  }

  /** `s.trimStart()` in JavaScript. */
  function TrimStart(s: string): (r: string)
    ensures |r| <= |s| && r == s[|s| - |r|..]
    ensures forall i :: 0 <= i < |s| - |r| ==> IsJsSpace(s[i])
    ensures r == [] || !IsJsSpace(r[0])
    decreases |s|
  {
    if |s| > 0 && IsJsSpace(s[0]) then TrimStart(s[1..]) else s
  }

  /** `s.trimEnd()` in JavaScript. */
  function TrimEnd(s: string): (r: string)
    ensures r <= s
    ensures forall i :: |r| <= i < |s| ==> IsJsSpace(s[i])
    ensures r == [] || !IsJsSpace(r[|r| - 1])
    decreases |s|
  {
    if |s| > 0 && IsJsSpace(s[|s| - 1]) then TrimEnd(s[..|s| - 1]) else s
  }

  /** `s.trim()` in JavaScript: a contiguous slice of `s` with only
      whitespace cut away on either side, and none left at either end. */
  function Trim(s: string): (r: string)
    ensures exists i, j ::
      && 0 <= i <= j <= |s| && r == s[i..j]
      && (forall k :: 0 <= k < i ==> IsJsSpace(s[k]))
      && (forall k :: j <= k < |s| ==> IsJsSpace(s[k]))
    ensures r == [] || (!IsJsSpace(r[0]) && !IsJsSpace(r[|r| - 1]))
  {
    var t := TrimStart(s);
    var r := TrimEnd(t);
    TrimSlice(s, t, r);
    var i := |s| - |t|;
    assert forall k :: i + |r| <= k < |s| ==> s[k] == t[k - i];
    r
  }

  lemma TrimSlice(s: string, t: string, r: string)
    requires |t| <= |s| && t == s[|s| - |t|..]
    requires r <= t
    ensures 0 <= |s| - |t| <= |s| - |t| + |r| <= |s| && r == s[|s| - |t|..|s| - |t| + |r|]
  {
  }

  /** A string with no whitespace at either end is left alone by trim. */
  lemma TrimKeepsUnpadded(s: string)
    requires s == [] || (!IsJsSpace(s[0]) && !IsJsSpace(s[|s| - 1]))
    ensures Trim(s) == s
  {
  }

  /** Trimming never yields a string with leading whitespace from one that
      had any, so padded tokens differ from their trimmed form. */
  lemma TrimChangesPadded(s: string)
    requires |s| > 0 && IsJsSpace(s[0])
    ensures Trim(s) != s
  {
  }

  predicate IsDigit(c: char) {
    '0' <= c <= '9'
  }

  predicate AllDigits(s: string) {
    forall i :: 0 <= i < |s| ==> IsDigit(s[i])
  }

  /** The regular expression `^[0-9]+$` (no multiline flag): one or more
      ASCII digits and nothing else. */
  predicate IsDigitString(s: string) {
    |s| > 0 && AllDigits(s)
  }

  function DigitChar(d: nat): (c: char)
    requires d < 10
    ensures IsDigit(c) && c as int - '0' as int == d
  {
    "0123456789"[d]
  }

  /** Decimal rendering of a natural number, without leading zeros. */
  function NatToDecimal(n: nat): (s: string)
    ensures |s| >= 1 && AllDigits(s)
    decreases n
  {
    if n < 10 then [DigitChar(n)] else NatToDecimal(n / 10) + [DigitChar(n % 10)]
  }

  /** `String(n)` in JavaScript and `str(n)` in Python for an integer. */
  function IntToDecimal(n: int): (s: string)
    ensures |s| >= 1
    ensures forall i :: 0 <= i < |s| ==> s[i] == '-' || IsDigit(s[i])
  {
    if n < 0 then "-" + NatToDecimal(-n) else NatToDecimal(n)
  }

  /** The value of a string of decimal digits (the inverse of NatToDecimal). */
  function DecimalValue(s: string): nat
    requires AllDigits(s)
    decreases |s|
  {
    if |s| == 0 then 0
    else DecimalValue(s[..|s| - 1]) * 10 + (s[|s| - 1] as int - '0' as int)
  }

  /** Reading back a rendered natural number gives the number. */
  lemma {:induction false} DecimalRoundTrip(n: nat)
    ensures DecimalValue(NatToDecimal(n)) == n
    decreases n
  {
    if n >= 10 {
      DecimalRoundTrip(n / 10);
      var s := NatToDecimal(n);
      assert s[..|s| - 1] == NatToDecimal(n / 10);
    }
  }

  /** Reads back a rendered integer: an optional minus sign, then digits. */
  function SignedDecimalValue(s: string): int
    requires |s| >= 1
    requires if s[0] == '-' then AllDigits(s[1..]) else AllDigits(s)
  {
    if s[0] == '-' then -(DecimalValue(s[1..]) as int) else DecimalValue(s)
  }

  /** Reading back a rendered integer gives the integer. */
  lemma IntDecimalRoundTrip(n: int)
    ensures var s := IntToDecimal(n);
      (if s[0] == '-' then AllDigits(s[1..]) else AllDigits(s)) && SignedDecimalValue(s) == n
  {
    if n < 0 {
      var d := NatToDecimal(-n);
      assert ("-" + d)[1..] == d;
      DecimalRoundTrip(-n);
    } else {
      DecimalRoundTrip(n);
    }
  }

  /** Distinct integers render as distinct strings. */
  lemma IntToDecimalInjective(a: int, b: int)
    requires IntToDecimal(a) == IntToDecimal(b)
    ensures a == b
  {
    IntDecimalRoundTrip(a);
    IntDecimalRoundTrip(b);
  }

  /** A rendered integer is never empty and holds no whitespace and no
      comma or newline, so it survives trimming and never spans two
      comma- or newline-separated pieces. */
  lemma DecimalIsPlainToken(n: int)
    ensures IntToDecimal(n) != ""
    ensures NoJsSpace(IntToDecimal(n))
    ensures ',' !in IntToDecimal(n) && '\n' !in IntToDecimal(n)
  {
  }

  /** `s.substring(0, n)`: the longest prefix of `s` of length at most `n`. */
  function Take(s: string, n: nat): (r: string)
    ensures r <= s
    ensures |r| == if |s| <= n then |s| else n
  {
    if |s| <= n then s else s[..n]
  }
}

=== FILE: worker.dfy ===
/** The webhook edition: one invocation per delivered update. An update
    is classified (a button press before a message), the sender is checked
    against the allow-list, and the matching flow produces its calls to
    the chat provider and the workflow provider, in order. The reply to
    the webhook delivery is 200 "OK" unless something threw, then 500. */
module Worker {
  import opened Strings
  import opened Effects
  import opened Messaging
  import opened Workflow
  import opened Commands
  import opened Auth

  /** The settings the worker reads. The bot token is required; every other
      setting may be missing. */
  datatype Env = Env(
    botToken: string,
    allowedUserIds: Option<string>,
    githubRepo: Option<string>,
    workflowName: Option<string>,
    githubBranch: Option<string>,
    tunnelToken: Option<string>)

  /** A chat message: the chat it came from, the sender, the sender's first
      name and the text, when the update carries them. */
  datatype Message = Message(chatId: int, fromId: int, firstName: Option<string>, text: Option<string>)

  /** A button press on a message the bot sent. */
  datatype CallbackQuery = CallbackQuery(id: string, fromId: int, chatId: int, messageId: int, data: Option<string>)

  datatype Update = Update(message: Option<Message>, callbackQuery: Option<CallbackQuery>)

  datatype Reply = Reply(status: int, body: string)

  /** The answer to the webhook delivery and the calls the invocation made. */
  datatype WebhookResult = WebhookResult(reply: Reply, trace: seq<Effect>)

  const DefaultBranch := "improvements"
  const ListCommandsData := "list_commands"
  const ShowHelpData := "show_help"

  /** JavaScript's `setting || fallback`: a missing or empty setting gives
      the fallback. */
  function OrElse(o: Option<string>, fallback: string): string {
    if o.Some? && o.value != "" then o.value else fallback
  }

  function Repo(env: Env): string {
    OrElse(env.githubRepo, DefaultRepo)
  }

  function WorkflowFile(env: Env): string {
    OrElse(env.workflowName, DefaultWorkflow)
  }

  function Branch(env: Env): string {
    OrElse(env.githubBranch, DefaultBranch)
  }

  function TunnelToken(env: Env): string {
    OrElse(env.tunnelToken, "")
  }

  // ---------------------------------------------------------------------
  // Texts

  /** The `/start` greeting, around the sender's first name. */
  function WelcomeText(userName: string): string {
    WelcomeHead + userName + WelcomeTail
  }

  const WelcomeHead := "👋 *Welcome "
  /** The rest of the greeting: the bot's name and purpose and a reference
      to the menu below; its wording is not modelled. */
  const WelcomeTail: string

  /** The `/help` guide, ending in a link to the repository. */
  function HelpText(repo: string): string {
    HelpBody + "[GitHub](https://github.com/" + repo + ")"
  }

  /** The guide itself: usage steps, the three named commands, instance
      details and troubleshooting; its wording is not modelled. */
  const HelpBody: string

  /** The command list shown from the start menu's button. */
  function MenuListText(commandList: string): string {
    ListHead + commandList + UsageTail
  }

  /** The `/actionslist` reply: the menu's list plus a note on stopping. */
  function ActionsListText(commandList: string): string {
    ListHead + commandList + UsageTail + StopNote
  }

  const UsageTail := "\n\n*Usage:*\nSimply type any command above to start an instance\nExample: `/chrome` to start Google Chrome"
  const StopNote := "\n\nTo stop a running instance, click the *Cancel* button on the deployment message."

  /** The short guide the start menu's help button shows; its wording is
      not modelled. */
  const QuickGuideText: string

  /** A button of an inline keyboard: it either sends data back to the bot
      or opens a link. */
  datatype Button = CallbackButton(caption: string, data: string) | UrlButton(caption: string, url: string)

  function ButtonJson(b: Button): Json {
    match b
    case CallbackButton(caption, data) => JObj([("text", JStr(caption)), ("callback_data", JStr(data))])
    case UrlButton(caption, url) => JObj([("text", JStr(caption)), ("url", JStr(url))])
  }

  /** An inline keyboard with one button per row. */
  function KeyboardJson(buttons: seq<Button>): Json {
    JObj([("inline_keyboard", JArr(seq(|buttons|, i requires 0 <= i < |buttons| => JArr([ButtonJson(buttons[i])]))))])
  }

  /** The `/start` menu: the command list, the quick guide and a link to
      the repository. */
  function StartButtons(repo: string): seq<Button> {
    [ CallbackButton("📋 Available Commands", ListCommandsData),
      CallbackButton("❓ Help & Guide", ShowHelpData),
      UrlButton("🌐 GitHub Repository", "https://github.com/" + repo) ]
  }

  // ---------------------------------------------------------------------
  // Messages

  /** The command word: the text up to its first space, without its first
      character, cut at the first `@`. */
  function ExtractCommand(text: string): (cmd: string)
    ensures ' ' !in cmd && '@' !in cmd
    ensures StartsWith(text, "/") ==> IsCommandOf(text, cmd)
  {
    var token := Split(text, ' ')[0];
    var rest := if |token| == 0 then "" else token[1..];
    var cmd := Split(rest, '@')[0];
    SplitHead(text, ' ');
    SplitHead(rest, '@');
    assert forall i :: 0 <= i < |cmd| ==> cmd[i] == rest[i];
    assert forall i :: 0 <= i < |rest| ==> rest[i] == token[i + 1];
    cmd
  }

  /** `cmd` is what follows the leading character up to the first space,
      the first `@` or the end of the text. */
  predicate IsCommandOf(text: string, cmd: string) {
    && |text| >= 1
    && cmd <= text[1..]
    && ' ' !in cmd && '@' !in cmd
    && (|cmd| + 1 == |text| || text[|cmd| + 1] == ' ' || text[|cmd| + 1] == '@')
  }

  /** A text has at most one command: the extraction above is the only
      reading of it. */
  lemma CommandOfUnique(text: string, a: string, b: string)
    requires IsCommandOf(text, a) && IsCommandOf(text, b)
    ensures a == b
  {
    var u := text[1..];
    assert forall k :: 0 <= k < |a| ==> u[k] != ' ' && u[k] != '@';
    assert forall k :: 0 <= k < |b| ==> u[k] != ' ' && u[k] != '@';
    assert |a| < |u| ==> u[|a|] == ' ' || u[|a|] == '@';
    assert |b| < |u| ==> u[|b|] == ' ' || u[|b|] == '@';
  }

  /** A bot mention or arguments after the command do not change it:
      `/c`, `/c@bot` and `/c args` all name `c`. */
  lemma MentionStripping(c: string, tail: string)
    requires ' ' !in c && '@' !in c
    requires tail == [] || tail[0] == ' ' || tail[0] == '@'
    ensures ExtractCommand("/" + c + tail) == c
  {
    var text := "/" + c + tail;
    assert text[1..] == c + tail;
    assert IsCommandOf(text, c);
    CommandOfUnique(text, c, ExtractCommand(text));
  }

  lemma MentionStrippingExample()
    ensures ExtractCommand("/chrome@mybot extra args") == "chrome"
    ensures ExtractCommand("/chrome") == "chrome"
  {
    MentionStripping("chrome", "@mybot extra args");
    MentionStripping("chrome", "");
    assert "/chrome@mybot extra args" == "/" + "chrome" + "@mybot extra args";
    assert "/chrome" == "/" + "chrome" + "";
  }

  datatype Route = StartFlow | HelpFlow | ActionsListFlow | BrowserFlow(image: string) | UnknownCommand

  /** The `switch` on the command, falling back to a command table. */
  function RouteIn(t: Table, cmd: string): (r: Route)
    ensures r == StartFlow <==> cmd == "start"
    ensures r == HelpFlow <==> cmd == "help"
    ensures r == ActionsListFlow <==> cmd == "actionslist"
    ensures r.BrowserFlow? ==>
      cmd !in Reserved && r.image != "" && exists i :: 0 <= i < |t| && t[i] == (cmd, r.image)
    ensures r == UnknownCommand ==> cmd !in Reserved && Lookup(t, cmd) in {None, Some("")}
  {
    if cmd == "start" then StartFlow
    else if cmd == "help" then HelpFlow
    else if cmd == "actionslist" then ActionsListFlow
    else match TruthyImage(t, cmd)
      case Some(image) => BrowserFlow(image)
      case None => UnknownCommand
  }

  /** The worker's routing, over its own table. */
  function RouteOf(cmd: string): Route {
    RouteIn(WorkerTable, cmd)
  }

  /** Routing agrees with a well-formed table that avoids the reserved
      names: a listed command launches its own image; a command that is
      neither listed nor reserved goes nowhere. */
  lemma RouteInFollowsTable(t: Table, cmd: string)
    requires WellFormed(t)
    requires forall i :: 0 <= i < |t| ==> t[i].0 !in Reserved
    ensures RouteIn(t, cmd).BrowserFlow? <==> exists i :: 0 <= i < |t| && t[i].0 == cmd
    ensures forall i :: 0 <= i < |t| && t[i].0 == cmd ==> RouteIn(t, cmd) == BrowserFlow(t[i].1)
    ensures RouteIn(t, cmd) == UnknownCommand
        <==> cmd !in Reserved && forall i :: 0 <= i < |t| ==> t[i].0 != cmd
  {
    TruthyIsMembership(t, cmd);
  }

  lemma RoutingFollowsTable(cmd: string)
    ensures RouteOf(cmd).BrowserFlow? <==> exists i :: 0 <= i < |WorkerTable| && WorkerTable[i].0 == cmd
    ensures forall i :: 0 <= i < |WorkerTable| && WorkerTable[i].0 == cmd ==> RouteOf(cmd) == BrowserFlow(WorkerTable[i].1)
    ensures RouteOf(cmd) == UnknownCommand
        <==> cmd !in Reserved && forall i :: 0 <= i < |WorkerTable| ==> WorkerTable[i].0 != cmd
  {
    WorkerTableWellFormed();
    RouteInFollowsTable(WorkerTable, cmd);
  }

  /** A message the worker treats as a command: text present and
      starting with `/`. */
  predicate IsCommandText(text: Option<string>) {
    text.Some? && StartsWith(text.value, "/")
  }

  /** The launch flow: acknowledge, dispatch, report. The chat id is sent
      as a string here, as a number everywhere else. */
  function BrowserEffects(chatId: string, image: string, env: Env, wf: HttpOutcome): (r: seq<Effect>)
    ensures |r| == 3 && MessagingCount(r) == 2 && WorkflowCount(r) == 1
    ensures r[0] == SendMessage(JStr(chatId), StartingText(image), NoSendOptions)
    ensures r[1] == TriggerWorkflow(Repo(env), WorkflowFile(env), WorkerDispatchBody(Branch(env), chatId, image, env.botToken, TunnelToken(env)))
    ensures r[2] == SendMessage(JStr(chatId), WorkerTriggerResult(wf).message, NoSendOptions)
  {
    var r := [ SendMessage(JStr(chatId), StartingText(image), NoSendOptions),
               TriggerWorkflow(Repo(env), WorkflowFile(env), WorkerDispatchBody(Branch(env), chatId, image, env.botToken, TunnelToken(env))),
               SendMessage(JStr(chatId), WorkerTriggerResult(wf).message, NoSendOptions) ];
    CountsConcat([r[0]], [r[1], r[2]]);
    CountsConcat([r[1]], [r[2]]);
    r
  }

  /** The one Markdown reply each of the three named flows sends: the
      greeting with the start menu's keyboard, the guide without link
      previews, or the command list with its usage and stop notes. */
  function MenuReply(t: Table, route: Route, m: Message, env: Env): (e: Effect)
    requires route.StartFlow? || route.HelpFlow? || route.ActionsListFlow?
    ensures e.SendMessage? && e.chatId == JNum(m.chatId) && e.sendOpts.parseMode == Some(Markdown)
    ensures e.sendOpts.replyMarkup.Some? <==> route.StartFlow?
    ensures route.StartFlow? ==>
      && e.text == WelcomeText(OrElse(m.firstName, "User"))
      && e.sendOpts.replyMarkup == Some(KeyboardJson(StartButtons(Repo(env))))
      && e.sendOpts.disablePreview == None
    ensures route.HelpFlow? ==>
      e.text == HelpText(Repo(env)) && e.sendOpts.disablePreview == Some(JBool(true))
    ensures route.ActionsListFlow? ==>
      e.text == ActionsListText(WorkerCommandList(t)) && e.sendOpts.disablePreview == None
  {
    var chat := JNum(m.chatId);
    match route
    case StartFlow =>
      SendMessage(chat, WelcomeText(OrElse(m.firstName, "User")),
                  SendOptions(Some(Markdown), Some(KeyboardJson(StartButtons(Repo(env)))), None))
    case HelpFlow =>
      SendMessage(chat, HelpText(Repo(env)), SendOptions(Some(Markdown), None, Some(JBool(true))))
    case ActionsListFlow =>
      SendMessage(chat, ActionsListText(WorkerCommandList(t)), SendOptions(Some(Markdown), None, None))
  }

  /** What each flow of the message router sends. */
  function FlowEffects(t: Table, route: Route, m: Message, env: Env, wf: HttpOutcome): (r: seq<Effect>)
    ensures |r| <= 3
    ensures WorkflowCount(r) == if route.BrowserFlow? then 1 else 0
  {
    match route
    case BrowserFlow(image) => BrowserEffects(IntToDecimal(m.chatId), image, env, wf)
    case UnknownCommand => []
    case _ => [MenuReply(t, route, m, env)]
  }

  /** The message flow over a command table; the worker runs it over its
      own table. */
  function MessageEffectsIn(t: Table, m: Message, env: Env, wf: HttpOutcome): (r: seq<Effect>)
    ensures |r| <= 3 && WorkflowCount(r) <= 1
    ensures WorkflowCount(r) == 1 ==> WorkerIsAuthorized(m.fromId, env.allowedUserIds) && IsCommandText(m.text)
  {
    if !WorkerIsAuthorized(m.fromId, env.allowedUserIds) then
      [SendMessage(JNum(m.chatId), NotAuthorizedText, NoSendOptions)]
    else if !IsCommandText(m.text) then []
    else FlowEffects(t, RouteIn(t, ExtractCommand(m.text.value)), m, env, wf)
  }

  function MessageEffects(m: Message, env: Env, wf: HttpOutcome): seq<Effect> {
    MessageEffectsIn(WorkerTable, m, env, wf)
  }

  /** The gate of the message flow: an unauthorized sender gets the
      denial alone, and an authorized sender's non-command is ignored. */
  lemma MessageGate(t: Table, m: Message, env: Env, wf: HttpOutcome)
    ensures !WorkerIsAuthorized(m.fromId, env.allowedUserIds) ==>
      MessageEffectsIn(t, m, env, wf) == [SendMessage(JNum(m.chatId), NotAuthorizedText, NoSendOptions)]
    ensures WorkerIsAuthorized(m.fromId, env.allowedUserIds) && !IsCommandText(m.text) ==>
      MessageEffectsIn(t, m, env, wf) == []
  {
  }

  /** Past the gate, a listed command launches exactly its image. */
  lemma MessageLaunches(t: Table, m: Message, env: Env, wf: HttpOutcome, i: int)
    requires WellFormed(t)
    requires forall i :: 0 <= i < |t| ==> t[i].0 !in Reserved
    requires WorkerIsAuthorized(m.fromId, env.allowedUserIds) && IsCommandText(m.text)
    requires 0 <= i < |t| && t[i].0 == ExtractCommand(m.text.value)
    ensures MessageEffectsIn(t, m, env, wf) == BrowserEffects(IntToDecimal(m.chatId), t[i].1, env, wf)
  {
    var cmd := ExtractCommand(m.text.value);
    RouteInFollowsTable(t, cmd);
    PastTheGate(t, m, env, wf);
    LaunchFlow(t, t[i].1, m, env, wf);
  }

  /** Past the gate the message flow is the flow its command routes to. */
  lemma PastTheGate(t: Table, m: Message, env: Env, wf: HttpOutcome)
    requires WorkerIsAuthorized(m.fromId, env.allowedUserIds) && IsCommandText(m.text)
    ensures MessageEffectsIn(t, m, env, wf) == FlowEffects(t, RouteIn(t, ExtractCommand(m.text.value)), m, env, wf)
  {
  }

  /** The launch flow of an image is its acknowledge-dispatch-report trio. */
  lemma LaunchFlow(t: Table, image: string, m: Message, env: Env, wf: HttpOutcome)
    ensures FlowEffects(t, BrowserFlow(image), m, env, wf) == BrowserEffects(IntToDecimal(m.chatId), image, env, wf)
  {
  }

  /** Past the gate, each of the three reserved commands sends its menu
      reply and nothing else. */
  lemma MessageMenus(t: Table, m: Message, env: Env, wf: HttpOutcome)
    requires WorkerIsAuthorized(m.fromId, env.allowedUserIds) && IsCommandText(m.text)
    ensures var cmd := ExtractCommand(m.text.value);
      && (cmd == "start" ==> MessageEffectsIn(t, m, env, wf) == [MenuReply(t, StartFlow, m, env)])
      && (cmd == "help" ==> MessageEffectsIn(t, m, env, wf) == [MenuReply(t, HelpFlow, m, env)])
      && (cmd == "actionslist" ==> MessageEffectsIn(t, m, env, wf) == [MenuReply(t, ActionsListFlow, m, env)])
  {
    PastTheGate(t, m, env, wf);
  }

  /** The `/actionslist` reply lists every command of the table, one
      bulleted line each, in table order. */
  lemma ActionsListReplyLines(t: Table, m: Message, env: Env)
    requires WellFormed(t) && |t| >= 1
    ensures var e := MenuReply(t, ActionsListFlow, m, env);
      && e.text == ListHead + WorkerCommandList(t) + UsageTail + StopNote
      && var lines := Split(WorkerCommandList(t), '\n');
         |lines| == |t| && forall i :: 0 <= i < |t| ==> lines[i] == WorkerLine(t[i].0)
  {
    WorkerCommandListLines(t);
  }

  /** The `/help` guide ends in the same repository link as the start
      menu's third button. */
  lemma HelpLinksRepository(repo: string)
    ensures var url := StartButtons(repo)[2].url;
      |url| + 1 <= |HelpText(repo)| && HelpText(repo)[|HelpText(repo)| - |url| - 1..] == url + ")"
  {
    var url := "https://github.com/" + repo;
    assert HelpText(repo) == (HelpBody + "[GitHub](") + (url + ")");
  }

  /** Past the gate, an unlisted, unreserved command makes no call. */
  lemma MessageUnknownIsSilent(t: Table, m: Message, env: Env, wf: HttpOutcome)
    requires WellFormed(t)
    requires forall i :: 0 <= i < |t| ==> t[i].0 !in Reserved
    requires WorkerIsAuthorized(m.fromId, env.allowedUserIds) && IsCommandText(m.text)
    requires ExtractCommand(m.text.value) !in Reserved
    requires forall i :: 0 <= i < |t| ==> t[i].0 != ExtractCommand(m.text.value)
    ensures MessageEffectsIn(t, m, env, wf) == []
  {
    RouteInFollowsTable(t, ExtractCommand(m.text.value));
    PastTheGate(t, m, env, wf);
  }

  /** Exactly the listed commands of authorized senders reach the
      workflow provider, and then once. */
  lemma MessageWorkflowCalls(t: Table, m: Message, env: Env, wf: HttpOutcome)
    requires WellFormed(t)
    requires forall i :: 0 <= i < |t| ==> t[i].0 !in Reserved
    ensures var r := MessageEffectsIn(t, m, env, wf);
      && |r| <= 3
      && (WorkflowCount(r) == 1 <==>
            WorkerIsAuthorized(m.fromId, env.allowedUserIds) && IsCommandText(m.text)
            && exists i :: 0 <= i < |t| && t[i].0 == ExtractCommand(m.text.value))
      && WorkflowCount(r) <= 1
  {
    if WorkerIsAuthorized(m.fromId, env.allowedUserIds) && IsCommandText(m.text) {
      RouteInFollowsTable(t, ExtractCommand(m.text.value));
    }
  }

  /** The message flow as a whole, over the worker's table: an
      unauthorized sender gets the denial alone; a non-command is ignored;
      a listed command launches exactly its image; an unlisted, unreserved
      command makes no call. Exactly the listed commands of authorized
      senders reach the workflow provider, once. */
  lemma MessageFlow(m: Message, env: Env, wf: HttpOutcome)
    ensures var r := MessageEffects(m, env, wf);
      && (!WorkerIsAuthorized(m.fromId, env.allowedUserIds) ==> r == [SendMessage(JNum(m.chatId), NotAuthorizedText, NoSendOptions)])
      && (WorkerIsAuthorized(m.fromId, env.allowedUserIds) && !IsCommandText(m.text) ==> r == [])
      && (WorkerIsAuthorized(m.fromId, env.allowedUserIds) && IsCommandText(m.text) ==>
            var cmd := ExtractCommand(m.text.value);
            && (cmd == "start" ==> r == [MenuReply(WorkerTable, StartFlow, m, env)])
            && (cmd == "help" ==> r == [MenuReply(WorkerTable, HelpFlow, m, env)])
            && (cmd == "actionslist" ==> r == [MenuReply(WorkerTable, ActionsListFlow, m, env)])
            && (forall i :: 0 <= i < |WorkerTable| && WorkerTable[i].0 == cmd ==>
                  r == BrowserEffects(IntToDecimal(m.chatId), WorkerTable[i].1, env, wf))
            && (cmd !in Reserved && (forall i :: 0 <= i < |WorkerTable| ==> WorkerTable[i].0 != cmd) ==> r == []))
      && |r| <= 3
      && (WorkflowCount(r) == 1 <==>
            WorkerIsAuthorized(m.fromId, env.allowedUserIds) && IsCommandText(m.text)
            && exists i :: 0 <= i < |WorkerTable| && WorkerTable[i].0 == ExtractCommand(m.text.value))
      && WorkflowCount(r) <= 1
  {
    WorkerTableWellFormed();
    MessageGate(WorkerTable, m, env, wf);
    if WorkerIsAuthorized(m.fromId, env.allowedUserIds) && IsCommandText(m.text) {
      var cmd := ExtractCommand(m.text.value);
      MessageMenus(WorkerTable, m, env, wf);
      forall i | 0 <= i < |WorkerTable| && WorkerTable[i].0 == cmd
        ensures MessageEffects(m, env, wf) == BrowserEffects(IntToDecimal(m.chatId), WorkerTable[i].1, env, wf)
      {
        MessageLaunches(WorkerTable, m, env, wf, i);
      }
      if cmd !in Reserved && (forall i :: 0 <= i < |WorkerTable| ==> WorkerTable[i].0 != cmd) {
        MessageUnknownIsSilent(WorkerTable, m, env, wf);
      }
    }
    MessageWorkflowCalls(WorkerTable, m, env, wf);
  }

  /** The launch flow's first two calls do not depend on how the trigger
      went: the acknowledgment is sent whatever the outcome. */
  lemma AckIndependentOfOutcome(chatId: string, image: string, env: Env, wf1: HttpOutcome, wf2: HttpOutcome)
    ensures BrowserEffects(chatId, image, env, wf1)[..2] == BrowserEffects(chatId, image, env, wf2)[..2]
  {
  }

  /** When the acknowledgment throws, the invocation stops before the
      dispatch; when the final report throws, the dispatch has already
      gone out and the delivery is still answered with an error. */
  lemma BrowserFlowFaults(chatId: string, image: string, env: Env, wf: HttpOutcome)
    ensures var r := BrowserEffects(chatId, image, env, wf);
      && Run(r, ThrowsAt(0)) == Execution(r[..1], true)
      && Run(r, ThrowsAt(1)) == Execution(r, true)
  {
    var r := BrowserEffects(chatId, image, env, wf);
    assert r[..1] == [r[0]];
    assert r[1..][1..] == [r[2]] && r[1..][1..][1..] == [];
    assert Run(r[1..][1..], ThrowsAt(0)) == Execution([r[2]], true);
    assert Run(r[1..], ThrowsAt(0)) == Execution([r[1], r[2]], true);
    assert [r[0]] + [r[1], r[2]] == r;
  }

  // ---------------------------------------------------------------------
  // Button presses

  datatype CallbackAction = ShowCommandList | ShowQuickGuide | CancelWorkflowRun(runId: string) | IgnoreCallback

  /** The data of a button press: the two menu keys, then any run id
      written in decimal digits only; everything else, and no data at all,
      is ignored. */
  function ClassifyCallback(data: Option<string>): (a: CallbackAction)
    ensures a == ShowCommandList <==> data == Some(ListCommandsData)
    ensures a == ShowQuickGuide <==> data == Some(ShowHelpData)
    ensures a.CancelWorkflowRun? <==> data.Some? && IsDigitString(data.value)
    ensures a.CancelWorkflowRun? ==> a.runId == data.value
  {
    if data == Some(ListCommandsData) then
      assert !IsDigit(ListCommandsData[0]);
      ShowCommandList
    else if data == Some(ShowHelpData) then
      assert !IsDigit(ShowHelpData[0]);
      ShowQuickGuide
    else if data.Some? && IsDigitString(data.value) then CancelWorkflowRun(data.value)
    else IgnoreCallback
  }

  function Edit(q: CallbackQuery, text: string, opts: EditOptions): Effect {
    EditMessage(JNum(q.chatId), JNum(q.messageId), text, opts)
  }

  function Answer(q: CallbackQuery, opts: AnswerOptions): Effect {
    AnswerCallback(JStr(q.id), opts)
  }

  /** What follows the answer to an authorized press, by its data. */
  function ActionEffects(q: CallbackQuery, action: CallbackAction, env: Env, wf: HttpOutcome): (r: seq<Effect>)
    ensures |r| <= 2
    ensures WorkflowCount(r) == if action.CancelWorkflowRun? then 1 else 0
  {
    match action
    case CancelWorkflowRun(runId) =>
      var r := [CancelRun(Repo(env), runId), Edit(q, WorkerCancelResult(runId, wf).message, NoEditOptions)];
      CountsConcat([r[0]], [r[1]]);
      r
    case IgnoreCallback => []
    case _ => [MenuEdit(q, action)]
  }

  /** The Markdown edit each of the two menu buttons makes in place: the
      command list with its usage note, or the quick guide. */
  function MenuEdit(q: CallbackQuery, action: CallbackAction): (e: Effect)
    requires action == ShowCommandList || action == ShowQuickGuide
    ensures e.EditMessage? && e.chatId == JNum(q.chatId) && e.messageId == JNum(q.messageId)
    ensures e.editOpts == EditOptions(Some(Markdown), None)
    ensures action == ShowCommandList ==> e.text == MenuListText(WorkerCommandList(WorkerTable))
    ensures action == ShowQuickGuide ==> e.text == QuickGuideText
  {
    if action == ShowCommandList then
      Edit(q, MenuListText(WorkerCommandList(WorkerTable)), EditOptions(Some(Markdown), None))
    else
      Edit(q, QuickGuideText, EditOptions(Some(Markdown), None))
  }

  /** The button flow: the press is always answered first. */
  function CallbackEffects(q: CallbackQuery, env: Env, wf: HttpOutcome): (r: seq<Effect>)
    ensures 1 <= |r| <= 3 && r[0].AnswerCallback? && r[0].callbackId == JStr(q.id)
    ensures WorkflowCount(r) <= 1
    ensures WorkflowCount(r) == 1 ==> WorkerIsAuthorized(q.fromId, env.allowedUserIds)
  {
    if !WorkerIsAuthorized(q.fromId, env.allowedUserIds) then
      [Answer(q, DenialAlert)]
    else
      var rest := ActionEffects(q, ClassifyCallback(q.data), env, wf);
      CountsConcat([Answer(q, NoAnswerOptions)], rest);
      [Answer(q, NoAnswerOptions)] + rest
  }

  /** The button flow as a whole: an unauthorized presser gets one alert
      and nothing else; otherwise the press is answered first, and a run
      is cancelled exactly when the data is all digits, with that very
      string as the run id, followed by the edited result. Other data
      besides the two menu keys answers the press and does nothing more. */
  lemma CallbackFlow(q: CallbackQuery, env: Env, wf: HttpOutcome)
    ensures var r := CallbackEffects(q, env, wf);
      && (!WorkerIsAuthorized(q.fromId, env.allowedUserIds) ==> r == [Answer(q, DenialAlert)])
      && (WorkerIsAuthorized(q.fromId, env.allowedUserIds) ==> |r| >= 1 && r[0] == Answer(q, NoAnswerOptions))
      && (WorkerIsAuthorized(q.fromId, env.allowedUserIds) && q.data.Some? && IsDigitString(q.data.value) ==>
            r[1..] == [CancelRun(Repo(env), q.data.value), Edit(q, WorkerCancelResult(q.data.value, wf).message, NoEditOptions)])
      && (WorkerIsAuthorized(q.fromId, env.allowedUserIds) && q.data == Some(ListCommandsData) ==>
            r == [Answer(q, NoAnswerOptions), MenuEdit(q, ShowCommandList)])
      && (WorkerIsAuthorized(q.fromId, env.allowedUserIds) && q.data == Some(ShowHelpData) ==>
            r == [Answer(q, NoAnswerOptions), MenuEdit(q, ShowQuickGuide)])
      && ((q.data != Some(ListCommandsData) && q.data != Some(ShowHelpData)
           && !(q.data.Some? && IsDigitString(q.data.value))) ==> |r| == 1)
      && (WorkflowCount(r) == 1 <==>
            WorkerIsAuthorized(q.fromId, env.allowedUserIds) && q.data.Some? && IsDigitString(q.data.value))
      && WorkflowCount(r) <= 1
  {
    CallbackMenus(q, env, wf);
    if WorkerIsAuthorized(q.fromId, env.allowedUserIds) {
      var action := ClassifyCallback(q.data);
      var rest := ActionEffects(q, action, env, wf);
      CountsConcat([Answer(q, NoAnswerOptions)], rest);
      assert ([Answer(q, NoAnswerOptions)] + rest)[1..] == rest;
    }
  }

  /** An authorized press of either menu button is answered and then
      edits the pressed message into that menu. */
  lemma CallbackMenus(q: CallbackQuery, env: Env, wf: HttpOutcome)
    ensures WorkerIsAuthorized(q.fromId, env.allowedUserIds) && q.data == Some(ListCommandsData) ==>
      CallbackEffects(q, env, wf) == [Answer(q, NoAnswerOptions), MenuEdit(q, ShowCommandList)]
    ensures WorkerIsAuthorized(q.fromId, env.allowedUserIds) && q.data == Some(ShowHelpData) ==>
      CallbackEffects(q, env, wf) == [Answer(q, NoAnswerOptions), MenuEdit(q, ShowQuickGuide)]
  {
    if WorkerIsAuthorized(q.fromId, env.allowedUserIds) && q.data == Some(ListCommandsData) {
      MenuPress(q, env, wf, ShowCommandList);
    }
    if WorkerIsAuthorized(q.fromId, env.allowedUserIds) && q.data == Some(ShowHelpData) {
      MenuPress(q, env, wf, ShowQuickGuide);
    }
  }

  lemma MenuActionEdits(q: CallbackQuery, action: CallbackAction, env: Env, wf: HttpOutcome)
    requires action == ShowCommandList || action == ShowQuickGuide
    ensures ActionEffects(q, action, env, wf) == [MenuEdit(q, action)]
  {
  }

  /** Short sequence literals, stated once so that proofs about flows
      need not rediscover them. */
  lemma PairConcat(x: Effect, y: Effect)
    ensures [x] + [y] == [x, y]
  {
  }

  lemma TripleConcat(x: Effect, y: Effect, z: Effect)
    ensures [x] + [y, z] == [x, y, z]
  {
  }

  /** An authorized press classified as a menu answers, then edits. */
  lemma MenuPress(q: CallbackQuery, env: Env, wf: HttpOutcome, action: CallbackAction)
    requires action == ShowCommandList || action == ShowQuickGuide
    requires WorkerIsAuthorized(q.fromId, env.allowedUserIds) && ClassifyCallback(q.data) == action
    ensures CallbackEffects(q, env, wf) == [Answer(q, NoAnswerOptions), MenuEdit(q, action)]
  {
    var a := Answer(q, NoAnswerOptions);
    var rest := ActionEffects(q, action, env, wf);
    assert CallbackEffects(q, env, wf) == [a] + rest;
    MenuActionEdits(q, action, env, wf);
    PairConcat(a, MenuEdit(q, action));
  }

  /** The list the start menu's button shows reads, line by line, as the
      worker's table; the `/actionslist` reply is that same text plus the
      note on stopping. */
  lemma CommandListEditLines(q: CallbackQuery, m: Message, env: Env)
    ensures var e := MenuEdit(q, ShowCommandList);
      && e.text + StopNote == MenuReply(WorkerTable, ActionsListFlow, m, env).text
      && var lines := Split(WorkerCommandList(WorkerTable), '\n');
         |lines| == |WorkerTable| && forall i :: 0 <= i < |WorkerTable| ==> lines[i] == WorkerLine(WorkerTable[i].0)
  {
    var list := WorkerCommandList(WorkerTable);
    assert MenuEdit(q, ShowCommandList).text == MenuListText(list);
    assert MenuReply(WorkerTable, ActionsListFlow, m, env).text == ActionsListText(list);
    StopNoteExtendsList(list);
    WorkerListLines();
  }

  lemma WorkerListLines()
    ensures var lines := Split(WorkerCommandList(WorkerTable), '\n');
      |lines| == |WorkerTable| && forall i :: 0 <= i < |WorkerTable| ==> lines[i] == WorkerLine(WorkerTable[i].0)
  {
    WorkerTableWellFormed();
    WorkerCommandListLines(WorkerTable);
  }

  /** The `/actionslist` text is the menu's list text plus the stop note. */
  lemma StopNoteExtendsList(commandList: string)
    ensures MenuListText(commandList) + StopNote == ActionsListText(commandList)
  {
  }

  /** Every data-carrying button of the start menu leads to one of the two
      menu flows, never to a cancel or to nothing; the third row is the
      repository link. */
  lemma StartMenuButtonsLeadToMenus(repo: string)
    ensures |StartButtons(repo)| == 3
    ensures forall i :: 0 <= i < 3 && StartButtons(repo)[i].CallbackButton? ==>
      ClassifyCallback(Some(StartButtons(repo)[i].data)) in {ShowCommandList, ShowQuickGuide}
    ensures StartButtons(repo)[2] == UrlButton("🌐 GitHub Repository", "https://github.com/" + repo)
    ensures KeyboardJson(StartButtons(repo)).fields[0].1.items[0] == JArr([ButtonJson(StartButtons(repo)[0])])
  {
  }

  // ---------------------------------------------------------------------
  // Webhook

  /** Classification: a button press wins over a message; an update with
      neither makes no call. */
  function UpdateEffects(u: Update, env: Env, wf: HttpOutcome): (r: seq<Effect>)
    ensures WorkflowCount(r) <= 1
    ensures u.callbackQuery.Some? ==> r == CallbackEffects(u.callbackQuery.value, env, wf)
    ensures u.callbackQuery.None? && u.message.Some? ==> r == MessageEffects(u.message.value, env, wf)
    ensures u.callbackQuery.None? && u.message.None? ==> r == []
  {
    if u.callbackQuery.Some? then CallbackEffects(u.callbackQuery.value, env, wf)
    else if u.message.Some? then MessageEffects(u.message.value, env, wf)
    else []
  }

  /** One webhook delivery. `body` is the parsed update, or None when the
      body is not JSON; `wf` is what the workflow provider answers, if
      asked; `fault` says which chat-provider call throws, if any. */
  function HandleWebhook(body: Option<Update>, env: Env, wf: HttpOutcome, fault: Fault): (r: WebhookResult)
    ensures r.reply == Reply(200, "OK") || r.reply == Reply(500, "Error")
    ensures body.None? ==> r == WebhookResult(Reply(500, "Error"), [])
    ensures body.Some? ==> r.trace <= UpdateEffects(body.value, env, wf)
    ensures body.Some? ==> r.trace == Run(UpdateEffects(body.value, env, wf), fault).trace
    ensures body.Some? ==>
      (r.reply.status == 500 <==> fault.ThrowsAt? && fault.k < MessagingCount(UpdateEffects(body.value, env, wf)))
    ensures body.Some? && fault == NoFault ==> r == WebhookResult(Reply(200, "OK"), UpdateEffects(body.value, env, wf))
    ensures WorkflowCount(r.trace) <= 1
  {
    match body
    case None => WebhookResult(Reply(500, "Error"), [])
    case Some(u) =>
      AtMostOneWorkflowCall(u, env, wf);
      var x := Perform(Plan(UpdateEffects(u, env, wf), false), fault);
      WebhookResult(if x.aborted then Reply(500, "Error") else Reply(200, "OK"), x.trace)
  }

  /** No update makes more than one call to the workflow provider. */
  lemma AtMostOneWorkflowCall(u: Update, env: Env, wf: HttpOutcome)
    ensures WorkflowCount(UpdateEffects(u, env, wf)) <= 1
  {
    if u.callbackQuery.Some? {
      CallbackFlow(u.callbackQuery.value, env, wf);
    } else if u.message.Some? {
      MessageFlow(u.message.value, env, wf);
    }
  }

  /** A button press is handled the same whether or not the update also
      carries a message. */
  lemma CallbackTakesPrecedence(q: CallbackQuery, m: Option<Message>, env: Env, wf: HttpOutcome, fault: Fault)
    ensures HandleWebhook(Some(Update(m, Some(q))), env, wf, fault) == HandleWebhook(Some(Update(None, Some(q))), env, wf, fault)
  {
  }

  /** An update with neither a message nor a button press is acknowledged
      and makes no call. */
  lemma EmptyUpdateIgnored(env: Env, wf: HttpOutcome, fault: Fault)
    ensures HandleWebhook(Some(Update(None, None)), env, wf, fault) == WebhookResult(Reply(200, "OK"), [])
  {
  }

  /** The sender the worker checks: the presser of a button, else the
      author of the message. */
  function Sender(u: Update): Option<int> {
    if u.callbackQuery.Some? then Some(u.callbackQuery.value.fromId)
    else if u.message.Some? then Some(u.message.value.fromId)
    else None
  }

  /** An unauthorized sender never reaches the workflow provider, and
      gets at most one call: the denial. */
  lemma UnauthorizedNeverTriggers(u: Update, env: Env, wf: HttpOutcome, fault: Fault)
    requires Sender(u).Some? && !WorkerIsAuthorized(Sender(u).value, env.allowedUserIds)
    ensures var r := HandleWebhook(Some(u), env, wf, fault);
      && WorkflowCount(r.trace) == 0
      && |r.trace| <= 1
      && (fault == NoFault ==> |r.trace| == 1)
  {
    var r := HandleWebhook(Some(u), env, wf, fault);
    var effects := UpdateEffects(u, env, wf);
    if u.callbackQuery.Some? {
      CallbackFlow(u.callbackQuery.value, env, wf);
    } else {
      MessageFlow(u.message.value, env, wf);
    }
    assert |effects| == 1 && !effects[0].IsWorkflowCall();
    WorkflowCountPrefix(r.trace, effects);
  }

  /** A listed command from an authorized sender, with no call throwing:
      three calls in order, the second being the one dispatch, with the
      image the table gives. */
  lemma BrowserCommandScenario(m: Message, env: Env, wf: HttpOutcome, i: int)
    requires WorkerIsAuthorized(m.fromId, env.allowedUserIds)
    requires 0 <= i < |WorkerTable|
    requires m.text == Some("/" + WorkerTable[i].0)
    ensures var r := HandleWebhook(Some(Update(Some(m), None)), env, wf, NoFault);
      && r.reply == Reply(200, "OK")
      && r.trace == BrowserEffects(IntToDecimal(m.chatId), WorkerTable[i].1, env, wf)
      && |r.trace| == 3 && MessagingCount(r.trace) == 2 && WorkflowCount(r.trace) == 1
      && r.trace[1].TriggerWorkflow?
      && r.trace[1].body == WorkerDispatchBody(Branch(env), IntToDecimal(m.chatId), WorkerTable[i].1, env.botToken, TunnelToken(env))
  {
    var c := WorkerTable[i].0;
    WorkerTableWellFormed();
    PlainNameHasNoSeparators(c);
    MentionStripping(c, "");
    assert "/" + c + "" == "/" + c;
    MessageLaunches(WorkerTable, m, env, wf, i);
  }

  /** The allow-list "111,222" rejects sender 999 asking for `/chrome`:
      one denial, no dispatch. */
  lemma DeniedScenario(m: Message, env: Env, wf: HttpOutcome)
    requires m.fromId == 999 && env.allowedUserIds == Some("111,222")
    ensures HandleWebhook(Some(Update(Some(m), None)), env, wf, NoFault)
         == WebhookResult(Reply(200, "OK"), [SendMessage(JNum(m.chatId), NotAuthorizedText, NoSendOptions)])
  {
    UnlistedIdRejected();
    MessageFlow(m, env, wf);
  }

  /** An authorized press whose data is a run id, when the provider
      accepts the cancel: the press is answered, that run is cancelled,
      and the message is edited to say the run is stopping. */
  lemma CancelAccepted(q: CallbackQuery, env: Env, status: int, body: string)
    requires WorkerIsAuthorized(q.fromId, env.allowedUserIds)
    requires q.data.Some? && IsDigitString(q.data.value) && FetchOk(status)
    ensures HandleWebhook(Some(Update(None, Some(q))), env, Response(status, body), NoFault)
         == WebhookResult(Reply(200, "OK"),
              [ Answer(q, NoAnswerOptions),
                CancelRun(Repo(env), q.data.value),
                Edit(q, StoppingMessage(q.data.value), NoEditOptions) ])
  {
    var wf := Response(status, body);
    var a := ClassifyCallback(q.data);
    assert a == CancelWorkflowRun(q.data.value);
    var c := CancelRun(Repo(env), q.data.value);
    var e := Edit(q, StoppingMessage(q.data.value), NoEditOptions);
    assert ActionEffects(q, a, env, wf) == [c, e];
    assert CallbackEffects(q, env, wf) == [Answer(q, NoAnswerOptions)] + [c, e];
    TripleConcat(Answer(q, NoAnswerOptions), c, e);
    assert UpdateEffects(Update(None, Some(q)), env, wf) == CallbackEffects(q, env, wf);
  }

  /** Button data "123456" cancels run "123456". */
  lemma CancelScenario(q: CallbackQuery, env: Env, status: int, body: string)
    requires WorkerIsAuthorized(q.fromId, env.allowedUserIds)
    requires q.data == Some("123456") && FetchOk(status)
    ensures HandleWebhook(Some(Update(None, Some(q))), env, Response(status, body), NoFault).trace
         == [ Answer(q, NoAnswerOptions),
              CancelRun(Repo(env), "123456"),
              Edit(q, StoppingMessage("123456"), NoEditOptions) ]
  {
    SampleRunIdIsDigits();
    CancelAccepted(q, env, status, body);
  }

  lemma SampleRunIdIsDigits()
    ensures IsDigitString("123456")
  {
  }
}

=== FILE: workflow.dfy ===
/** The workflow client of both editions: the dispatch body it posts and
    how it renders the provider's answer to a trigger or a cancel request
    as a success flag and a chat message. Neither edition lets an error
    escape: every outcome becomes a result. */
module Workflow {
  import opened Strings
  import opened Effects

  datatype WorkflowResult = WorkflowResult(success: bool, message: string)

  /** The repository and workflow file both editions fall back to. */
  const DefaultRepo := "dikeckaan/neko-actions"
  const DefaultWorkflow := "telegram-bot.yml"

  const TriggeredMessage := "✅ Workflow successfully triggered!"
  const HttpErrorPrefix := "❌ HTTP Error: "
  const NetworkErrorPrefix := "❌ Network Error: "
  const StopFailedPrefix := "❌ Failed to stop: "

  /** How much of an error body the worker relays. */
  const BodyLimit: nat := 200

  /** `response.ok` of the Fetch API: a 2xx status. */
  predicate FetchOk(status: int) {
    200 <= status <= 299
  }

  /** `raise_for_status()` of requests raises only for 4xx and 5xx. */
  predicate RaisesForStatus(status: int) {
    400 <= status < 600
  }

  function StoppingMessage(runId: string): string {
    "🟠 Workflow " + runId + " is being stopped!"
  }

  /** The `{ref, inputs}` body of a workflow dispatch. */
  function DispatchBody(ref: string, inputs: seq<(string, string)>): Json {
    JObj([("ref", JStr(ref)), ("inputs", JObj(InputFields(inputs)))])
  }

  function InputFields(inputs: seq<(string, string)>): (f: Fields)
    ensures |f| == |inputs|
    ensures forall i :: 0 <= i < |inputs| ==> f[i] == (inputs[i].0, JStr(inputs[i].1))
  {
    if |inputs| == 0 then [] else [(inputs[0].0, JStr(inputs[0].1))] + InputFields(inputs[1..])
  }

  /** The worker's dispatch inputs: the chat as a string, the image, the
      bot token and the tunnel token. */
  function WorkerDispatchBody(branch: string, chatId: string, image: string, botToken: string, tunnelToken: string): (b: Json)
    ensures b == JObj([ ("ref", JStr(branch)),
                        ("inputs", JObj([ ("chatid", JStr(chatId)), ("image", JStr(image)),
                                          ("bottoken", JStr(botToken)), ("cloudflaretoken", JStr(tunnelToken)) ])) ])
  {
    var inputs := [("chatid", chatId), ("image", image), ("bottoken", botToken), ("cloudflaretoken", tunnelToken)];
    assert InputFields(inputs) == [ ("chatid", JStr(chatId)), ("image", JStr(image)),
                                    ("bottoken", JStr(botToken)), ("cloudflaretoken", JStr(tunnelToken)) ];
    DispatchBody(branch, inputs)
  }

  /** The polling bot's dispatch: always the `master` branch, and no tunnel token. */
  function ManagerDispatchBody(chatId: string, image: string, botToken: string): (b: Json)
    ensures b == JObj([ ("ref", JStr("master")),
                        ("inputs", JObj([ ("chatid", JStr(chatId)), ("image", JStr(image)), ("bottoken", JStr(botToken)) ])) ])
  {
    var inputs := [("chatid", chatId), ("image", image), ("bottoken", botToken)];
    assert InputFields(inputs) == [("chatid", JStr(chatId)), ("image", JStr(image)), ("bottoken", JStr(botToken))];
    DispatchBody("master", inputs)
  }

  function HttpErrorMessage(status: int, shownBody: string): string {
    HttpErrorPrefix + IntToDecimal(status) + "\n" + shownBody
  }

  /** The worker's `triggerWorkflow` result: success only for a 2xx; an
      error status is shown with at most the first 200 characters of the
      body; a network error with its description. */
  function WorkerTriggerResult(outcome: HttpOutcome): (r: WorkflowResult)
    ensures r.success <==> outcome.Response? && FetchOk(outcome.status)
    ensures r.success ==> r.message == TriggeredMessage
    ensures outcome.Response? && !r.success ==>
      exists shown :: shown <= outcome.body
        && |shown| == (if |outcome.body| <= BodyLimit then |outcome.body| else BodyLimit)
        && r.message == HttpErrorMessage(outcome.status, shown)
    ensures outcome.NetErr? ==> r.message == NetworkErrorPrefix + outcome.msg
  {
    match outcome
    case Response(status, body) =>
      if FetchOk(status) then WorkflowResult(true, TriggeredMessage)
      else
        var shown := Take(body, BodyLimit);
        WorkflowResult(false, HttpErrorMessage(status, shown))
    case NetErr(msg) => WorkflowResult(false, NetworkErrorPrefix + msg)
  }

  /** The worker's `cancelWorkflowRun` result. */
  function WorkerCancelResult(runId: string, outcome: HttpOutcome): (r: WorkflowResult)
    ensures r.success <==> outcome.Response? && FetchOk(outcome.status)
    ensures r.success ==> r.message == StoppingMessage(runId)
    ensures outcome.Response? && !r.success ==> r.message == StopFailedPrefix + IntToDecimal(outcome.status)
    ensures outcome.NetErr? ==> r.message == NetworkErrorPrefix + outcome.msg
  {
    match outcome
    case Response(status, _) =>
      if FetchOk(status) then WorkflowResult(true, StoppingMessage(runId))
      else WorkflowResult(false, StopFailedPrefix + IntToDecimal(status))
    case NetErr(msg) => WorkflowResult(false, NetworkErrorPrefix + msg)
  }

  /** The polling bot's `trigger_workflow` result: an error only for 4xx
      and 5xx, shown with the whole body. */
  function ManagerTriggerResult(outcome: HttpOutcome): (r: WorkflowResult)
    ensures r.success <==> outcome.Response? && !RaisesForStatus(outcome.status)
    ensures r.success ==> r.message == TriggeredMessage
    ensures outcome.Response? && !r.success ==> r.message == HttpErrorMessage(outcome.status, outcome.body)
    ensures outcome.NetErr? ==> r.message == NetworkErrorPrefix + outcome.msg
  {
    match outcome
    case Response(status, body) =>
      if RaisesForStatus(status) then WorkflowResult(false, HttpErrorMessage(status, body))
      else WorkflowResult(true, TriggeredMessage)
    case NetErr(msg) => WorkflowResult(false, NetworkErrorPrefix + msg)
  }

  /** The polling bot's `cancel_workflow_run` result. */
  function ManagerCancelResult(runId: string, outcome: HttpOutcome): (r: WorkflowResult)
    ensures r.success <==> outcome.Response? && !RaisesForStatus(outcome.status)
    ensures r.success ==> r.message == StoppingMessage(runId)
    ensures outcome.Response? && !r.success ==> r.message == StopFailedPrefix + IntToDecimal(outcome.status)
    ensures outcome.NetErr? ==> r.message == NetworkErrorPrefix + outcome.msg
  {
    match outcome
    case Response(status, _) =>
      if RaisesForStatus(status) then WorkflowResult(false, StopFailedPrefix + IntToDecimal(status))
      else WorkflowResult(true, StoppingMessage(runId))
    case NetErr(msg) => WorkflowResult(false, NetworkErrorPrefix + msg)
  }

  /** An HTTP error message determines the status and the body text it
      shows: two messages are equal only when both are. */
  lemma HttpErrorMessageInjective(s1: int, b1: string, s2: int, b2: string)
    requires HttpErrorMessage(s1, b1) == HttpErrorMessage(s2, b2)
    ensures s1 == s2 && b1 == b2
  {
    var d1, d2 := IntToDecimal(s1), IntToDecimal(s2);
    var t1, t2 := "\n" + b1, "\n" + b2;
    assert HttpErrorMessage(s1, b1) == HttpErrorPrefix + (d1 + t1);
    assert HttpErrorMessage(s2, b2) == HttpErrorPrefix + (d2 + t2);
    DropCommonPrefix(HttpErrorPrefix, d1 + t1, d2 + t2);
    StatusLineInjective(s1, b1, s2, b2);
  }

  /** Equal strings with a common prefix agree after it. */
  lemma DropCommonPrefix(p: string, a: string, b: string)
    requires p + a == p + b
    ensures a == b
  {
    assert a == (p + a)[|p|..];
    assert b == (p + b)[|p|..];
  }

  /** The status, a newline, then the body: the status ends at the first
      newline, so both parts can be read back. */
  lemma StatusLineInjective(s1: int, b1: string, s2: int, b2: string)
    requires IntToDecimal(s1) + ("\n" + b1) == IntToDecimal(s2) + ("\n" + b2)
    ensures s1 == s2 && b1 == b2
  {
    var d1, d2 := IntToDecimal(s1), IntToDecimal(s2);
    var t1, t2 := "\n" + b1, "\n" + b2;
    DecimalIsPlainToken(s1);
    DecimalIsPlainToken(s2);
    HeadOfSplit(d1, t1, '\n');
    HeadOfSplit(d2, t2, '\n');
    IntToDecimalInjective(s1, s2);
    assert t1 == (d1 + t1)[|d1|..];
    assert t2 == (d2 + t2)[|d2|..];
    assert b1 == t1[1..] && b2 == t2[1..];
  }

  /** The worker's HTTP error message gives back the status and the first
      200 characters of the body: two error responses yield the same
      message exactly when they agree on both. */
  lemma WorkerTriggerErrorDeterminesOutcome(s1: int, b1: string, s2: int, b2: string)
    requires !FetchOk(s1) && !FetchOk(s2)
    ensures WorkerTriggerResult(Response(s1, b1)) == WorkerTriggerResult(Response(s2, b2))
        <==> s1 == s2 && Take(b1, BodyLimit) == Take(b2, BodyLimit)
  {
    if WorkerTriggerResult(Response(s1, b1)) == WorkerTriggerResult(Response(s2, b2)) {
      HttpErrorMessageInjective(s1, Take(b1, BodyLimit), s2, Take(b2, BodyLimit));
    }
  }

  /** Where the editions agree: for a 2xx, 4xx or 5xx response with a body
      of at most 200 characters, and for every network error, both trigger
      results are the same. */
  lemma TriggerEditionsAgree(outcome: HttpOutcome)
    requires outcome.Response? ==> (FetchOk(outcome.status) || RaisesForStatus(outcome.status))
    requires outcome.Response? ==> |outcome.body| <= BodyLimit
    ensures WorkerTriggerResult(outcome) == ManagerTriggerResult(outcome)
  {
  }

  /** Where they differ: the worker reports a redirect status as a failure
      that the polling bot takes for success, and the polling bot relays a
      long error body whole where the worker cuts it at 200 characters. */
  lemma TriggerEditionsDiffer(body: string)
    requires |body| > BodyLimit
    ensures !WorkerTriggerResult(Response(302, "")).success && ManagerTriggerResult(Response(302, "")).success
    ensures WorkerTriggerResult(Response(500, body)).message != ManagerTriggerResult(Response(500, body)).message
  {
    var w := WorkerTriggerResult(Response(500, body)).message;
    var m := ManagerTriggerResult(Response(500, body)).message;
    if w == m {
      HttpErrorMessageInjective(500, Take(body, BodyLimit), 500, body);
    }
  }

  /** The worker's cancel message is the polling bot's on every outcome
      both classify alike. */
  lemma CancelEditionsAgree(runId: string, outcome: HttpOutcome)
    requires outcome.Response? ==> (FetchOk(outcome.status) || RaisesForStatus(outcome.status))
    ensures WorkerCancelResult(runId, outcome) == ManagerCancelResult(runId, outcome)
  {
  }

  /** A 500 with a short body is reported with the status and the whole
      body by both editions. */
  lemma ServerErrorScenario()
    ensures WorkerTriggerResult(Response(500, "server error"))
         == WorkflowResult(false, "❌ HTTP Error: 500\nserver error")
    ensures ManagerTriggerResult(Response(500, "server error"))
         == WorkflowResult(false, "❌ HTTP Error: 500\nserver error")
  {
    ServerErrorMessage();
    var b := "server error";
    assert Take(b, BodyLimit) == b;
  }

  lemma ServerErrorMessage()
    ensures HttpErrorMessage(500, "server error") == "❌ HTTP Error: 500\nserver error"
  {
    Rendered500();
  }

  lemma Rendered500()
    ensures IntToDecimal(500) == "500"
  {
  }
}
